=== FILE: README.md ===
# VPN comparison site: refresh, serve and table logic

This project is a Dafny model of the logic of a small VPN comparison site. The site has three parts:

- **The scheduled refresher** (`functions/cron/update-data.js`). It runs each provider adapter and drops the adapters that failed. It writes the surviving records to the key `latest_vpn_data` of a key-value namespace, but only when at least one adapter succeeded.
- **The read endpoint** (`functions/api/vpn-data.js`). It reads that key and answers one of three ways:
  - 200 with the stored batch and a one-hour cache header;
  - 404 with a "no data" message when nothing is stored;
  - 500 with a generic message when the read itself fails.
- **The client table** (`public/script.js`), in its pure parts:
  - the provider check boxes and the select-all button with its label;
  - the provider filter and the case-insensitive search;
  - the three sort orders and their default keys;
  - the CSV export's cell quoting.

Modules, one per concern:

| module | file | what it holds |
|---|---|---|
| `Wrappers` | wrappers.dfy | `Option` |
| `Records` | records.dfy | the provider `Record`, a `Batch` of them, and what JSON makes of them |
| `Text` | text.dfy | `toLowerCase`, `trim`, `includes` and `String(n)` on the subset the table uses |
| `Kv` | kv.dfy | the namespace as a map, with `get` and `put` |
| `Refresher` | refresher.dfy | adapters, collection, filtering, the conditional write |
| `ReadService` | read_service.dfy | the get outcome mapped to a status, a body and headers |
| `Pipeline` | pipeline.dfy | both workers as a state machine over one namespace, replayed over any trace of events |
| `Chips` | chips.dfy | check boxes, toggle-all, button label |
| `Sorting` | sorting.dfy | sort keys, comparator sign, stable sort |
| `Table` | table.dfy | the rows `renderTable` draws, the page it leaves, the click handler |
| `Csv` | csv.dfy | the export format, with a reader for it and round-trip proofs |

The key promises proved:

- A total outage never erases the stored batch.
- A write replaces the old batch and never merges with it.
- A put followed by a read returns exactly the records written, as JSON carries them.
- A failed read is a 500 that hides the error detail; it is never a 404.
- Reads never write.
- The slot always holds the last good batch.
- Filtering, searching and sorting only select and reorder rows.
- Sorting is stable.
- Every exported cell reads back unchanged.

## Model

| member | source | states |
|---|---|---|
| Kv.Get | functions/api/vpn-data.js:11 | A reachable store yields the value under the key exactly when the key is present; an unreachable one always throws |
| Kv.Put | functions/cron/update-data.js:28 | The key then holds exactly the new value; no other key appears, disappears or changes |
| Kv.PutThenGet | functions/cron/update-data.js:28 | A get of the key just put returns the value put |
| Records.JsonImage | functions/cron/update-data.js:28 | A record read back from its JSON text keeps every field, except that an unlimited connection count comes back as `null`; no image is unlimited |
| Records.JsonBatchStable | functions/api/vpn-data.js:21 | Serialising a parsed batch again changes nothing, and no record of it is unlimited |
| Refresher.Scrape | functions/cron/update-data.js:47-68 | An adapter settles with its record exactly when its body returned one; a thrown error settles as `null`; a thrown `null` or `undefined` rejects the adapter, because reading `e.message` in the `catch` throws again |
| Refresher.Collect | functions/cron/update-data.js:17-21 | `Promise.all` rejects exactly when some adapter rejects. Otherwise there is one outcome per adapter, in adapter order, each being what that adapter settled with: its record when it returned one, `null` when it threw an error |
| Refresher.Outcomes | functions/cron/update-data.js:17-21 | One outcome per adapter, in adapter order: a record exactly when that adapter returned one, and then that record |
| Refresher.Successes | functions/cron/update-data.js:24 | The filtered batch is no longer than the adapter list, and is empty exactly when every adapter failed |
| Refresher.SuccessesExactlyInOrder | functions/cron/update-data.js:24 | The batch is exactly the non-null outcomes: its j-th record is the outcome at the j-th successful position; positions increase; every successful position is used |
| Refresher.ExactlyInOrderStep | functions/cron/update-data.js:24 | One more adapter outcome extends the batch at its end by its record when it succeeded, and leaves it as it was when it failed |
| Refresher.SuccessMembership | functions/cron/update-data.js:24 | A record is in the batch exactly when some adapter returned it |
| Refresher.SuccessesAppend | functions/cron/update-data.js:24 | Filtering two adapter lists one after the other gives the two filtered lists one after the other |
| Refresher.FailureIsIndependent | functions/cron/update-data.js:24 | Turning one adapter's outcome into `null` removes only its record; the records before and after it stay in order |
| Refresher.Refresh | functions/cron/update-data.js:24-32 | The run is skipped exactly when all adapters failed, and then the store is untouched (present or absent). It publishes exactly when some adapter succeeded and the put resolved; the slot then holds exactly the JSON image of the batch, with between 1 and the adapter count records. Other keys never change |
| Refresher.Scheduled | functions/cron/update-data.js:10-33 | A whole run: aborted exactly when some adapter threw a nullish value; skipped exactly when every adapter threw an error; published exactly when no adapter threw a nullish value, some adapter returned a record and the put resolved; a failed put exactly when the same holds but the put rejected. The store changes only on publication, and then to the JSON image of the collected successes. Keys other than `latest_vpn_data` never change |
| Refresher.ReplacedNotMerged | functions/cron/update-data.js:26-28 | After a write, the slot does not depend on what the store held before, and every stored record is the JSON image of one some adapter returned in this run |
| ReadService.Respond | functions/api/vpn-data.js:13-35 | Status 200, 404 or 500 exactly for found, absent or thrown. 200 carries the stored batch; 404 carries the "no data" message; 500 carries the generic message whatever the error. Every response is JSON; only 200 carries `Cache-Control: public, max-age=3600` |
| ReadService.OnRequestGet | functions/api/vpn-data.js:5-36 | A reachable store with the key gives 200 with that batch; without the key it gives 404 with the "run the updater" message; an unreachable store gives 500 with the generic message. Every response has the `application/json` content type; the `Cache-Control: public, max-age=3600` header is sent exactly with a 200 |
| ReadService.FailureHidesDetail | functions/api/vpn-data.js:29-35 | Any two failed reads give the same response, whatever the store or error detail, and it is never 404 |
| Pipeline.ReadsNeverWrite | functions/api/vpn-data.js:11 | Replaying a trace gives the same namespace as replaying only its scheduled runs |
| Pipeline.CollectedBatchIsReturned | functions/cron/update-data.js:17-24 | The collected-then-filtered batch equals the list of records the adapters returned, in adapter order |
| Pipeline.ServesLastGood | functions/cron/update-data.js:26-32 | After any trace, the slot equals the JSON image of the batch of the latest run that wrote, or the initial contents; a read answers 200 with it, or 404 when there is none |
| Pipeline.StoredBatchNeverEmpty | functions/cron/update-data.js:26-28 | If the slot did not start as an empty batch, no trace makes it one |
| Pipeline.PutThenRead | functions/api/vpn-data.js:21-27 | Right after a run where some adapter returned, none threw a nullish value, and the put resolved, a read answers 200 with exactly the JSON images of the returned records, in adapter order, and both headers |
| Pipeline.TotalOutageInvisible | functions/cron/update-data.js:30-32 | A run in which no adapter returned a record, whatever each threw, leaves every later read's response as it was |
| Pipeline.NullishThrowLosesRun | functions/cron/update-data.js:17-21 | With two adapters, one returning a record and one throwing `null`, the run aborts and the store is untouched: the returned record is lost |
| Pipeline.OneOfTwoFails | functions/cron/update-data.js:17-29 | With the first adapter returning and the second throwing, exactly the one record is published, as its JSON image |
| Pipeline.StoredNeverUnlimited | functions/cron/update-data.js:28 | Once the slot holds no unlimited record, no trace puts one there, so a page never receives an unlimited connection count |
| Chips.InitialChips | public/script.js:65-68 | One box per provider, in provider order, each named after its provider and ticked |
| Chips.CheckedCount | public/script.js:61 | The ticked count equals the box count exactly when every box is ticked, and is 0 exactly when none is |
| Chips.Selected | public/script.js:26 | As many names as ticked boxes; a name is listed exactly when some ticked box carries it |
| Chips.ToggleLabel | public/script.js:61-62 | "Unselect All" exactly when every box is ticked, "Select All" otherwise |
| Chips.ToggleAll | public/script.js:116-119 | Box names and count are kept; all ticked become all unticked; otherwise all become ticked |
| Chips.ToggleTwice | public/script.js:116-119 | For any list of boxes, the empty one included: two clicks restore the boxes exactly when they were all ticked or all unticked; from a mixed state they leave none ticked |
| Chips.LabelAfterToggle | public/script.js:116-121 | On a page with at least one box, after a click the label offers the opposite of what the click did |
| Sorting.RankDefaults | public/script.js:35-37 | Only an unlimited connection count ranks as infinite. A present count, a present country count and a non-zero price rank as themselves. An absent or `null` count and absent countries rank as zero; an absent or zero price ranks as 9999 (999900 cents) |
| Sorting.SortKeyOf | public/script.js:34-37 | "price", "connections" and "countries" select the three orders; any other value selects none |
| Sorting.InsertCounts | public/script.js:35-37 | Insertion adds the new row and keeps every old one |
| Sorting.InsertSorted | public/script.js:35-37 | Insertion into an ordered sequence keeps it ordered |
| Sorting.SortBySorted | public/script.js:35-37 | `SortBy`'s result is ordered by the comparator |
| Sorting.SortByCounts | public/script.js:35-37 | `SortBy`'s result is a permutation of its input: every row occurs as often as before |
| Sorting.SortIsStable | public/script.js:35-37 | `SortBy` keeps rows the comparator ties in the order they went in |
| Sorting.SortIsStableForAll | public/script.js:35-37 | For every row at once, `SortBy` keeps the rows tied with it in their input order |
| Sorting.UnlimitedComeFirst | public/script.js:36 | In the connections order, only unlimited providers precede an unlimited one |
| Sorting.UnlimitedArrivesAsZero | public/script.js:36 | An unlimited provider as the page receives it ranks as zero devices and goes behind any provider with a positive count |
| Sorting.UnpricedGoLast | public/script.js:35 | In the price order, a provider with an absent or zero price is followed only by unpriced rows or rows priced at 9999 dollars or more |
| Sorting.ApplySort | public/script.js:34-37 | The rows are only reordered; an unrecognised value keeps their order; a recognised one sorts them by its key, keeping tied rows in the order they came in |
| Text.Lower | public/script.js:27 | Same length; each character mapped on its own; no upper-case letter left |
| Text.LowerIdempotent | public/script.js:27 | Lower-casing twice is lower-casing once |
| Text.Trim | public/script.js:27 | The result is a contiguous slice of the input; only white space is cut on either side; it neither starts nor ends with white space |
| Text.TrimFixesTrimmed | public/script.js:27 | A text with no white space at either end is its own trim |
| Text.TrimIdempotent | public/script.js:27 | Trimming twice is trimming once |
| Text.TrimKeepsCharacters | public/script.js:74 | Every character of the trimmed text occurs in the input |
| Text.Includes | public/script.js:31 | True exactly when the query occurs as a contiguous run in the text |
| Text.NatString | public/script.js:31 | `String(n)` is decimal digits with no leading zero, and reads back as `n` |
| Table.Filter | public/script.js:29 | Keeps only passing elements and never lengthens the sequence |
| Table.FilterCounts | public/script.js:29 | Each passing element is kept as often as it occurs; nothing else is kept |
| Table.FilterIsSubsequence | public/script.js:29 | What a filter keeps stays in its original order |
| Table.SubsequenceTransitive | public/script.js:29-31 | Two filters in a row still give a subsequence of the providers |
| Table.FilterKeepsAll | public/script.js:29 | When every element passes, the filter returns its input |
| Table.FieldTexts | public/script.js:31 | One text per field the record carries: the provider's name first, then its other text fields. A finite count reads as its decimal digits, an unlimited one as `Infinity` and a `null` one as `null`; the countries' and the price's texts are among them |
| Table.SearchCoversEveryField | public/script.js:31 | A query found in the lower-cased text of the provider's name, of any other text field, of a finite count, of the countries or of the price makes the record match |
| Table.AnyFieldIncludes | public/script.js:31 | True exactly when some field's lower-cased text contains the query |
| Table.Matching | public/script.js:29-32 | The filtered rows are no more than the providers; every kept row is ticked; with a non-blank query every kept row also has a matching field |
| Table.MatchingCounts | public/script.js:29-32 | After both filters, a row is kept exactly as often as it occurs among the providers if it passes both; otherwise it is dropped |
| Table.MatchingIsSubsequence | public/script.js:29-32 | Both filters keep the rows in provider order |
| Table.VisibleRows | public/script.js:26-37 | A row is drawn exactly as often as it occurs among the providers, if its box is ticked and, for a non-blank query, some field contains the trimmed lower-cased query; otherwise never. A recognised sort orders the rows and keeps rows of equal key in provider order; otherwise all rows keep provider order |
| Table.VisibleRowsAreShown | public/script.js:29-32 | Every drawn row's provider is ticked and, for a non-blank query, one of its fields matches |
| Table.RenderTable | public/script.js:23-63 | With no providers loaded, the page is unchanged. Otherwise the "no match" row appears exactly when no row survives. When rows survive, exactly those rows are drawn and the label becomes "Unselect All" when every box is ticked and "Select All" otherwise. With no row, the label keeps its old text |
| Table.RenderTableCorrected | public/script.js:39-62 | The corrected render: same table body as `RenderTable` (the surviving rows, or the "no match" row exactly when none survive). Once providers are loaded, the label is "Unselect All" exactly when every box is ticked and "Select All" otherwise, rows or no rows |
| Table.OnToggleAll | public/script.js:116-121 | The corrected click handler: the boxes keep their names and are flipped as `ToggleAll` does; on a loaded page the table then shows the rows the new boxes select (or the "no match" row exactly when there are none) and the label names the next click's action |
| Table.OnToggleAllAsWritten | public/script.js:116-121 | The handler as written leaves the same boxes and the same table body as the corrected one; the two differ only when no row survives, where this one keeps the label from before the click |
| Table.NothingSelectedShowsNothing | public/script.js:26-29 | With no box ticked no row is drawn |
| Table.StaleLabelAfterUnselectAll | public/script.js:39-42 | As written, clicking "Unselect All" unticks every box but leaves the label reading "Unselect All" |
| Table.InitialViewShowsAll | public/script.js:103-104 | On first render, with only white space in the search box and no recognised sort value, every provider is shown in provider order |
| Csv.NewlinesToSpaces | public/script.js:74 | Same length, no line feed left, each line feed replaced by a space and every other character kept |
| Csv.CleanCell | public/script.js:74 | An exported cell text is the line-feed-free text with only white space cut off at either end; it has no line feed and neither starts nor ends with white space |
| Csv.CleanCellIdempotent | public/script.js:74 | Cleaning a cleaned cell changes nothing |
| Csv.Escape | public/script.js:75 | Escaping never shortens a text |
| Csv.EscapeLength | public/script.js:75 | Escaping adds exactly one character per double quote |
| Csv.EscapeWithoutQuotes | public/script.js:75 | A text without double quotes is its own escape |
| Csv.EscapeNoLoneQuote | public/script.js:75 | Every double quote in an escaped text is one of an adjacent pair |
| Csv.Quote | public/script.js:75 | A quoted cell starts and ends with `"` and holds the escaped text between them |
| Csv.QuoteNoLoneQuote | public/script.js:75 | A quoted cell has no lone quote between its delimiting quotes |
| Csv.ParseEscaped | public/script.js:75 | Reading an escaped body followed by a closing quote (not itself doubled) gives back the original text and stops right after that quote |
| Csv.QuoteRoundTrip | public/script.js:75 | Reading back a quoted cell gives the original text, whatever quotes it held, and stops right after the cell |
| Csv.UnquoteQuote | public/script.js:75 | Un-quoting a quoted cell recovers the original text |
| Csv.EncodeRowCons | public/script.js:75 | A row of two or more cells is the first quoted cell, a comma, and the rest of the row |
| Csv.FirstCellOfRow | public/script.js:75 | Reading a row of two or more cells yields the first cell and stops at the comma |
| Csv.RowRoundTrip | public/script.js:75 | An encoded row followed by the end of the file or a line feed reads back as the same cells |
| Csv.EncodeTableCons | public/script.js:75 | A file of two or more rows is the first row, a line feed, and the rest |
| Csv.TableRoundTrip | public/script.js:75 | An encoded table of non-empty rows reads back as the same rows |
| Csv.ExportRoundTrip | public/script.js:72-75 | The encoded export rows start with the header row and, when every table row has a cell, read back as the header row followed by every row's cleaned cells |
| Csv.ExportCsv | public/script.js:72-75 | The exported file, when every table row has a cell, reads back as the header row followed by every row's cleaned cells |

## Left out

- The key-value store's I/O, `fetch` and the `Response` object are not modelled as such. The namespace is a map; a read's reachability is a parameter; a response is a status, a body and a header list.
- JSON text is not modelled as characters. A stored or served batch is the batch that text parses back to (`Records.JsonImage`): every field survives, except that `Infinity` becomes `null`.
- `Promise.all` concurrency is left out: the adapters' outcomes arrive as an already-settled list in adapter order.
- Cron runs and reads interleaving mid-operation is left out: a trace is a sequence of whole events.
- The adapters' bodies are hard-coded placeholder records. The model takes what each adapter's body did as input: it returned a record, threw an error object, or threw `null` or `undefined`. It keeps only the `try`/`catch`, which turns an error into `null` and, for a nullish throw, throws again from `e.message`, so that `Promise.all` rejects and the run writes nothing (`Refresher.Scheduled`, `Pipeline.NullishThrowLosesRun`). A thrown non-nullish primitive such as a string reads `e.message` as `undefined` and becomes `null` like an error object.
- Console logging is left out.
- The DOM is left out: `innerHTML` templating of the cells and the `features` section, event wiring, the `Blob`/URL download, and the footer year. The CSV export starts from the cell texts of the table rows.
- Refresher.Refresh: a rejected `put` is modelled as the outcome `PutFailed`, with the store unchanged. In the source the error escapes `scheduled`. It is not treated like a run with nothing to write, since the code does not catch it.
- Records.Record: a record keeps its provider name and its three sort fields typed. Every other field is kept only as the text `String(...)` gives, because only the search looks at them.
- Sorting.Before: prices are integer cents, not floating point. The comparator is modelled by its sign, and `Infinity - Infinity` (which is `NaN`) as a tie, since `Array.prototype.sort` treats `NaN` like 0.
- Text.Lower: maps only the ASCII letters A-Z. Unicode case folding is not modelled.
- Text.Trim: its white-space set omits the Unicode space separators above U+00A0 (U+1680, U+2000 to U+200A, U+202F, U+205F, U+3000).
- Text.NatString: and `Text.IntString`, which builds on it: counts of connections and countries are modelled as exact unbounded integers. In the page they are JavaScript numbers: `String(n)` writes a number from 1e21 up in exponent form (`1e+21`), and counts above 2^53 are not exact. Neither is modelled; the row's digit form holds for the safe integers the adapters return.
- Text.PriceString: renders a price in cents as JavaScript prints the number. The `toFixed(2)` used in the table cell is not modelled.
- Sorting.UnlimitedComeFirst: holds for the records the table sorts, but no record the page loads from the endpoint is unlimited. `JSON.stringify` at functions/cron/update-data.js:28 writes `Infinity` as `null`, so such a provider arrives with `connections` null. It then ranks as 0 (`Sorting.UnlimitedArrivesAsZero`) and its search text is `null`. The `Unlimited` cell of public/script.js:54 is unreachable for loaded data; the current adapters return finite counts.
- Chips.InitialChips: a box's value is taken to be the provider name. In the source it is the HTML attribute `value="${p.provider}"` parsed back, so a name holding `"` is cut at the quote and an entity such as `&amp;` is decoded. Such a provider would never match its own box. HTML parsing is not modelled.
- Table.FieldTexts: `Object.values` is taken to list the provider name, the other text fields, then connections, countries and price. Field order does not affect the search.

## Findings

| source | as written | input that shows it | evidently intended | confidence | as-written member | corrected member |
|---|---|---|---|---|---|---|
| public/script.js:39-62 | `renderTable` returns after drawing the "no match" row, before it refreshes the select-all label | All providers ticked and the label reads "Unselect All"; one click unticks every box, so no row matches; the label still reads "Unselect All" although the next click selects all | The label is refreshed on every render, so it always names what the next click does | high; not executed | Table.StaleLabelAfterUnselectAll | Table.OnToggleAll |

=== FILE: chips.dfy ===
/**
  The provider check boxes above the table, their select-all / unselect-all
  button and its label.
 */
module Chips {
  import opened Records

  /** One check box: the provider name it stands for, and whether it is ticked. */
  datatype Chip = Chip(value: string, checked: bool)

  /** `renderProviderChips`: one ticked box per provider, in provider order. */
  function InitialChips(providers: seq<Record>): (r: seq<Chip>)
    ensures |r| == |providers|
    ensures forall i :: 0 <= i < |r| ==> r[i].value == providers[i].provider
    ensures AllChecked(r)
  {
    seq(|providers|, i requires 0 <= i < |providers| => Chip(providers[i].provider, true))
  }

  /** `every(i => i.checked)`. */
  predicate AllChecked(chips: seq<Chip>) {
    forall i :: 0 <= i < |chips| ==> chips[i].checked
  }

  predicate NoneChecked(chips: seq<Chip>) {
    forall i :: 0 <= i < |chips| ==> !chips[i].checked
  }

  /**
    The number of ticked boxes (`querySelectorAll('input:checked').length`).
    It reaches the number of boxes exactly when every box is ticked, so the
    count test the label uses agrees with the `every` test the button uses.
   */
  function CheckedCount(chips: seq<Chip>): (n: nat)
    ensures n <= |chips|
    ensures n == |chips| <==> AllChecked(chips)
    ensures n == 0 <==> NoneChecked(chips)
  {
    if chips == [] then 0
    else
      var front := chips[..|chips| - 1];
      CheckedCount(front) + (if chips[|chips| - 1].checked then 1 else 0)
  }

  /** The names of the ticked boxes, in box order. */
  function Selected(chips: seq<Chip>): (r: seq<string>)
    ensures |r| == CheckedCount(chips)
    ensures forall v :: v in r <==> exists i :: 0 <= i < |chips| && chips[i].checked && chips[i].value == v
  {
    if chips == [] then []
    else
      var n := |chips| - 1;
      var front := chips[..n];
      var r := Selected(front) + (if chips[n].checked then [chips[n].value] else []);
      assert forall i :: 0 <= i < n ==> chips[i] == front[i];
      r
  }

  const SelectAllLabel: string := "Select All"
  const UnselectAllLabel: string := "Unselect All"

  /** The button offers to unselect exactly when every box is ticked. */
  function ToggleLabel(chips: seq<Chip>): (r: string)
    ensures r == UnselectAllLabel <==> AllChecked(chips)
    ensures r == SelectAllLabel <==> !AllChecked(chips)
  {
    if CheckedCount(chips) == |chips| then UnselectAllLabel else SelectAllLabel
  }

  /**
    The button's click handler: when every box is ticked, untick them all;
    otherwise tick them all. The names of the boxes do not change.
   */
  function ToggleAll(chips: seq<Chip>): (r: seq<Chip>)
    ensures |r| == |chips|
    ensures forall i :: 0 <= i < |r| ==> r[i].value == chips[i].value
    ensures AllChecked(chips) ==> NoneChecked(r)
    ensures !AllChecked(chips) ==> AllChecked(r)
  {
    var target := !AllChecked(chips);
    seq(|chips|, i requires 0 <= i < |chips| => chips[i].(checked := target))
  }

  /**
    Two clicks restore the boxes exactly when they started all ticked or all
    unticked; from a mixed state two clicks leave every box unticked.
   */
  lemma ToggleTwice(chips: seq<Chip>)
    ensures ToggleAll(ToggleAll(chips)) == chips <==> AllChecked(chips) || NoneChecked(chips)
    ensures !AllChecked(chips) ==> NoneChecked(ToggleAll(ToggleAll(chips)))
  {
    var twice := ToggleAll(ToggleAll(chips));
    if twice == chips && !AllChecked(chips) {
      assert !twice[0].checked;
    }
  }

  /** After a click the label shows the other action, unless there are no boxes at all. */
  lemma LabelAfterToggle(chips: seq<Chip>)
    ensures ToggleLabel(ToggleAll(chips)) == if AllChecked(chips) && |chips| > 0 then SelectAllLabel else UnselectAllLabel
  {
    if AllChecked(chips) && |chips| > 0 {
      assert !ToggleAll(chips)[0].checked;
    }
  }
}

=== FILE: csv.dfy ===
/**
  `exportCSV` in `public/script.js`: every cell of the header row and of the
  table rows is wrapped in double quotes with inner quotes doubled, cells are
  joined by commas and rows by line feeds. A reader for exactly that format
  is defined alongside, so that the export can be shown to lose nothing.
 */
module Csv {
  import opened Wrappers
  import opened Text

  const Headers: seq<string> := [
    "Provider", "Encryption", "Protocols", "No-Logs", "Kill Switch", "Multi-Hop",
    "Obfuscation", "RAM-Only", "Connections", "Server Countries", "Unique Benefits", "Price/mo"]

  /** `replace(/\n/g, ' ')`. */
  function NewlinesToSpaces(s: string): (r: string)
    ensures |r| == |s|
    ensures '\n' !in r
    ensures forall k :: 0 <= k < |r| ==> r[k] == s[k] || (s[k] == '\n' && r[k] == ' ')
  {
    seq(|s|, k requires 0 <= k < |s| => if s[k] == '\n' then ' ' else s[k])
  }

  /**
    A cell's text as exported: line feeds become spaces, then the text is
    trimmed. The result is the line-feed-free text with only white space cut
    off at either end; no line feed is left, and the text neither starts nor
    ends with white space.
   */
  function CleanCell(text: string): (r: string)
    ensures exists i :: TrimmedAt(NewlinesToSpaces(text), r, i)
    ensures '\n' !in r
    ensures r == [] || (!IsSpace(r[0]) && !IsSpace(r[|r| - 1]))
  {
    var spaced := NewlinesToSpaces(text);
    TrimAddsNoNewline(spaced);
    Trim(spaced)
  }

  lemma TrimAddsNoNewline(s: string)
    requires '\n' !in s
    ensures '\n' !in Trim(s)
  {
    TrimKeepsCharacters(s);
  }

  /** Cleaning a cleaned cell changes nothing. */
  lemma CleanCellIdempotent(text: string)
    ensures CleanCell(CleanCell(text)) == CleanCell(text)
  {
    var r := CleanCell(text);
    var spaced := NewlinesToSpaces(r);
    assert spaced == r by {
      forall k | 0 <= k < |r| ensures spaced[k] == r[k] {
        assert r[k] in r;
      }
    }
    TrimFixesTrimmed(r);
  }

  /** `replace(/"/g, '""')`: every double quote doubled, every other character kept. */
  function Escape(v: string): (r: string)
    ensures |r| >= |v|
  {
    if v == [] then []
    else if v[0] == '"' then "\"\"" + Escape(v[1..])
    else [v[0]] + Escape(v[1..])
  }

  /** Every double quote in `e` is one of an adjacent pair. */
  ghost predicate NoLoneQuote(e: string)
    decreases |e|
  {
    e == []
    || (e[0] != '"' && NoLoneQuote(e[1..]))
    || (|e| >= 2 && e[0] == '"' && e[1] == '"' && NoLoneQuote(e[2..]))
  }

  /** Escaping adds exactly one character per double quote in the text. */
  lemma {:induction false} EscapeLength(v: string)
    ensures |Escape(v)| == |v| + multiset(v)['"']
  {
    if v != [] {
      EscapeLength(v[1..]);
      assert v == [v[0]] + v[1..];
    }
  }

  /** A text without double quotes is its own escape. */
  lemma {:induction false} EscapeWithoutQuotes(v: string)
    requires '"' !in v
    ensures Escape(v) == v
  {
    if v != [] {
      assert v[0] != '"';
      assert '"' !in v[1..] by {
        forall k | 0 <= k < |v[1..]| ensures v[1..][k] != '"' {
          assert v[1..][k] == v[k + 1];
        }
      }
      EscapeWithoutQuotes(v[1..]);
    }
  }

  /** The escaped form of a non-empty text: its first character escaped, then the rest. */
  lemma EscapeCons(v: string)
    requires v != []
    ensures Escape(v) == (if v[0] == '"' then "\"\"" else [v[0]]) + Escape(v[1..])
  {
  }

  /** Escaping leaves no lone quote. */
  lemma {:induction false} EscapeNoLoneQuote(v: string)
    ensures NoLoneQuote(Escape(v))
  {
    if v != [] {
      EscapeNoLoneQuote(v[1..]);
      var e := Escape(v);
      EscapeCons(v);
      if v[0] == '"' {
        assert e[2..] == Escape(v[1..]);
      } else {
        assert e[1..] == Escape(v[1..]);
      }
    }
  }

  /** The exported form of one cell. */
  function Quote(v: string): (r: string)
    ensures |r| >= 2 && r[0] == '"' && r[|r| - 1] == '"'
    ensures r[1..|r| - 1] == Escape(v)
  {
    "\"" + Escape(v) + "\""
  }

  /** A quoted cell holds no lone quote between its delimiting quotes. */
  lemma QuoteNoLoneQuote(v: string)
    ensures NoLoneQuote(Quote(v)[1..|Quote(v)| - 1])
  {
    EscapeNoLoneQuote(v);
  }

  /** `Array.prototype.join`. */
  function Join(sep: string, parts: seq<string>): string {
    if |parts| == 0 then ""
    else if |parts| == 1 then parts[0]
    else parts[0] + sep + Join(sep, parts[1..])
  }

  function EncodeRow(cells: seq<string>): string {
    Join(",", seq(|cells|, i requires 0 <= i < |cells| => Quote(cells[i])))
  }

  function EncodeTable(rows: seq<seq<string>>): string {
    Join("\n", seq(|rows|, i requires 0 <= i < |rows| => EncodeRow(rows[i])))
  }

  /** The table as exported: the header row, then each row's cells cleaned. */
  function ExportRows(cellTexts: seq<seq<string>>): seq<seq<string>> {
    [Headers] + seq(|cellTexts|, i requires 0 <= i < |cellTexts| =>
      seq(|cellTexts[i]|, j requires 0 <= j < |cellTexts[i]| => CleanCell(cellTexts[i][j])))
  }

  /**
    The text `exportCSV` puts in the downloaded file. When every table row
    has a cell, reading the file back gives the header row followed by each
    row's cleaned cells.
   */
  function ExportCsv(cellTexts: seq<seq<string>>): (r: string)
    ensures NoEmptyRow(cellTexts) ==> ParseTable(r) == Some(ExportRows(cellTexts))
  {
    ExportRoundTrip(cellTexts);
    EncodeTable(ExportRows(cellTexts))
  }

  /** A value read from the front of a string, and what is left after it. */
  datatype Parsed<T> = Parsed(value: T, rest: string)

  /** Read a quoted cell's contents up to its closing quote; a doubled quote stands for one quote. */
  function ParseBody(s: string): (r: Option<Parsed<string>>)
    ensures r.Some? ==> |r.value.rest| < |s|
    decreases |s|
  {
    if s == [] then None
    else if s[0] == '"' then
      if |s| > 1 && s[1] == '"' then
        match ParseBody(s[2..])
        case None => None
        case Some(p) => Some(Parsed("\"" + p.value, p.rest))
      else Some(Parsed("", s[1..]))
    else
      match ParseBody(s[1..])
      case None => None
      case Some(p) => Some(Parsed([s[0]] + p.value, p.rest))
  }

  /** Read one quoted cell. */
  function ParseCell(s: string): (r: Option<Parsed<string>>)
    ensures r.Some? ==> |r.value.rest| < |s|
  {
    if s != [] && s[0] == '"' then ParseBody(s[1..]) else None
  }

  /** The inverse of `Quote` on a single cell. */
  function Unquote(cell: string): Option<string> {
    match ParseCell(cell)
    case Some(Parsed(v, rest)) => if rest == [] then Some(v) else None
    case None => None
  }

  /** Read comma-separated quoted cells up to the end of the line, which is left unread. */
  function ParseRow(s: string): (r: Option<Parsed<seq<string>>>)
    ensures r.Some? ==> |r.value.rest| < |s|
    ensures r.Some? ==> r.value.rest == [] || r.value.rest[0] == '\n'
    decreases |s|
  {
    match ParseCell(s)
    case None => None
    case Some(Parsed(cell, rest)) =>
      if rest != [] && rest[0] == ',' then
        match ParseRow(rest[1..])
        case None => None
        case Some(p) => Some(Parsed([cell] + p.value, p.rest))
      else if rest == [] || rest[0] == '\n' then Some(Parsed([cell], rest))
      else None
  }

  /** Read a whole file: rows separated by line feeds. */
  function ParseTable(s: string): Option<seq<seq<string>>>
    decreases |s|
  {
    match ParseRow(s)
    case None => None
    case Some(Parsed(row, rest)) =>
      if rest == [] then Some([row])
      else
        match ParseTable(rest[1..])
        case None => None
        case Some(rows) => Some([row] + rows)
  }

  /** A doubled quote in a body stands for one quote, and reading goes on after the pair. */
  lemma ParseBodyPair(e: string, closing: string, w: string, rest: string)
    requires ParseBody(e + closing) == Some(Parsed(w, rest))
    ensures ParseBody("\"\"" + e + closing) == Some(Parsed("\"" + w, rest))
  {
    var tail := e + closing;
    assert "\"\"" + e + closing == "\"\"" + tail;
    assert ("\"\"" + tail)[2..] == tail;
  }

  /** Any other character is kept, and reading goes on after it. */
  lemma ParseBodyPlain(c: char, e: string, closing: string, w: string, rest: string)
    requires c != '"' && ParseBody(e + closing) == Some(Parsed(w, rest))
    ensures ParseBody([c] + e + closing) == Some(Parsed([c] + w, rest))
  {
    var tail := e + closing;
    assert [c] + e + closing == [c] + tail;
    assert ([c] + tail)[1..] == tail;
  }

  /**
    Reading an escaped cell body followed by its closing quote gives back
    the cell, and stops right after that quote.
   */
  lemma {:induction false} ParseEscaped(v: string, closing: string)
    requires closing != [] && closing[0] == '"' && (|closing| == 1 || closing[1] != '"')
    ensures ParseBody(Escape(v) + closing) == Some(Parsed(v, closing[1..]))
  {
    if v == [] {
      assert Escape(v) + closing == closing;
    } else {
      ParseEscaped(v[1..], closing);
      ParseEscapedStep(v[0], v[1..], closing);
      assert [v[0]] + v[1..] == v;
    }
  }

  /** One character more in front of an escaped body is one character more in what is read back. */
  lemma ParseEscapedStep(h: char, t: string, closing: string)
    requires closing != []
    requires ParseBody(Escape(t) + closing) == Some(Parsed(t, closing[1..]))
    ensures ParseBody(Escape([h] + t) + closing) == Some(Parsed([h] + t, closing[1..]))
  {
    var v := [h] + t;
    assert v[0] == h && v[1..] == t;
    EscapeCons(v);
    if h == '"' {
      ParseBodyPair(Escape(t), closing, t, closing[1..]);
    } else {
      ParseBodyPlain(h, Escape(t), closing, t, closing[1..]);
    }
  }

  /** A quoted cell read back gives the original text, whatever quotes it held, and stops right after it. */
  lemma QuoteRoundTrip(v: string, rest: string)
    requires rest == [] || rest[0] != '"'
    ensures ParseCell(Quote(v) + rest) == Some(Parsed(v, rest))
  {
    var closing := "\"" + rest;
    ParseEscaped(v, closing);
    assert Quote(v) + rest == "\"" + (Escape(v) + closing);
    assert (Quote(v) + rest)[1..] == Escape(v) + closing;
    assert closing[1..] == rest;
  }

  /** `Unquote` undoes `Quote`. */
  lemma UnquoteQuote(v: string)
    ensures Unquote(Quote(v)) == Some(v)
  {
    QuoteRoundTrip(v, []);
    assert Quote(v) + [] == Quote(v);
  }

  /** How an encoded row of two or more cells splits at its first comma. */
  lemma EncodeRowCons(cells: seq<string>)
    requires |cells| > 1
    ensures EncodeRow(cells) == Quote(cells[0]) + "," + EncodeRow(cells[1..])
  {
    var quoted := seq(|cells|, i requires 0 <= i < |cells| => Quote(cells[i]));
    assert quoted[1..] == seq(|cells[1..]|, i requires 0 <= i < |cells[1..]| => Quote(cells[1..][i]));
  }

  /** A cell followed by a comma: the row is that cell, then the row after the comma. */
  lemma ParseRowComma(s: string, cell: string, t: string, p: Parsed<seq<string>>)
    requires ParseCell(s) == Some(Parsed(cell, "," + t))
    requires ParseRow(t) == Some(p)
    ensures ParseRow(s) == Some(Parsed([cell] + p.value, p.rest))
  {
    assert ("," + t)[1..] == t;
  }

  /** A cell followed by the end of the file or a line feed ends the row. */
  lemma ParseRowLast(s: string, cell: string, rest: string)
    requires ParseCell(s) == Some(Parsed(cell, rest))
    requires rest == [] || rest[0] == '\n'
    ensures ParseRow(s) == Some(Parsed([cell], rest))
  {
  }

  /** The first cell of an encoded row of two or more cells, read back. */
  lemma FirstCellOfRow(cells: seq<string>, rest: string)
    requires |cells| > 1
    ensures ParseCell(EncodeRow(cells) + rest) == Some(Parsed(cells[0], "," + (EncodeRow(cells[1..]) + rest)))
  {
    var tail := EncodeRow(cells[1..]) + rest;
    EncodeRowCons(cells);
    assert EncodeRow(cells) + rest == Quote(cells[0]) + ("," + tail);
    QuoteRoundTrip(cells[0], "," + tail);
  }

  /** An encoded row, followed by the end of the file or a line feed, reads back as the same cells. */
  lemma {:induction false} RowRoundTrip(cells: seq<string>, rest: string)
    requires |cells| > 0
    requires rest == [] || rest[0] == '\n'
    ensures ParseRow(EncodeRow(cells) + rest) == Some(Parsed(cells, rest))
  {
    var s := EncodeRow(cells) + rest;
    if |cells| == 1 {
      assert EncodeRow(cells) == Quote(cells[0]);
      QuoteRoundTrip(cells[0], rest);
      ParseRowLast(s, cells[0], rest);
      assert [cells[0]] == cells;
    } else {
      FirstCellOfRow(cells, rest);
      RowRoundTrip(cells[1..], rest);
      ParseRowComma(s, cells[0], EncodeRow(cells[1..]) + rest, Parsed(cells[1..], rest));
      assert [cells[0]] + cells[1..] == cells;
    }
  }

  /** Every row has at least one cell: a row with none would be an empty line, which the reader rejects. */
  ghost predicate NoEmptyRow(rows: seq<seq<string>>) {
    forall i :: 0 <= i < |rows| ==> |rows[i]| > 0
  }

  /** How an encoded table of two or more rows splits at its first line feed. */
  lemma EncodeTableCons(rows: seq<seq<string>>)
    requires |rows| > 1
    ensures EncodeTable(rows) == EncodeRow(rows[0]) + ("\n" + EncodeTable(rows[1..]))
  {
    var lines := seq(|rows|, i requires 0 <= i < |rows| => EncodeRow(rows[i]));
    assert lines[1..] == seq(|rows[1..]|, i requires 0 <= i < |rows[1..]| => EncodeRow(rows[1..][i]));
  }

  /** Export then read gives back the same rows of cells. */
  lemma {:induction false} TableRoundTrip(rows: seq<seq<string>>)
    requires |rows| > 0 && NoEmptyRow(rows)
    ensures ParseTable(EncodeTable(rows)) == Some(rows)
  {
    if |rows| == 1 {
      assert EncodeTable(rows) == EncodeRow(rows[0]);
      RowRoundTrip(rows[0], []);
      assert EncodeRow(rows[0]) + [] == EncodeRow(rows[0]);
      assert [rows[0]] == rows;
    } else {
      var tail := EncodeTable(rows[1..]);
      EncodeTableCons(rows);
      RowRoundTrip(rows[0], "\n" + tail);
      TableRoundTrip(rows[1..]);
      assert ("\n" + tail)[1..] == tail;
      assert [rows[0]] + rows[1..] == rows;
    }
  }

  /**
    The downloaded file reads back as the header row followed by every
    table row's cleaned cells, provided no table row is empty.
   */
  lemma ExportRoundTrip(cellTexts: seq<seq<string>>)
    ensures NoEmptyRow(cellTexts) ==> ParseTable(EncodeTable(ExportRows(cellTexts))) == Some(ExportRows(cellTexts))
    ensures ExportRows(cellTexts)[0] == Headers
  {
    if NoEmptyRow(cellTexts) {
      TableRoundTrip(ExportRows(cellTexts));
    }
  }
}

=== FILE: kv.dfy ===
/**
  The key-value namespace bound as `VPN_DATA`, shared by the scheduled
  refresher and the read endpoint. Values are stored as JSON text in the
  real store; a value here is the batch that text parses back to, which is
  the JSON image of the batch the refresher wrote (`Records.JsonImage`).
 */
module Kv {
  import opened Wrappers
  import opened Records

  /** The one key both the refresher and the read endpoint use. */
  const LatestKey: string := "latest_vpn_data"

  type Namespace = map<string, Batch>

  /** The single slot the application uses: the batch under `LatestKey`, if any. */
  function Slot(ns: Namespace): Option<Batch> {
    if LatestKey in ns then Some(ns[LatestKey]) else None
  }

  /** Whether the store answers a read; an unreachable store makes `get` reject with some error detail. */
  datatype Reachability = Reachable | Unreachable(detail: string)

  /** What an awaited `get` produces: the stored value, `null` for a missing key, or a thrown error. */
  datatype GetOutcome = Found(data: Batch) | Absent | GetThrew(detail: string)

  /** `get(key)`: a reachable store returns what was last put under `key`, or nothing. */
  function Get(ns: Namespace, reach: Reachability, key: string): (g: GetOutcome)
    ensures g.GetThrew? <==> reach.Unreachable?
    ensures reach.Reachable? ==> (g.Found? <==> key in ns)
    ensures g.Found? ==> key in ns && g.data == ns[key]
  {
    match reach
    case Unreachable(detail) => GetThrew(detail)
    case Reachable => if key in ns then Found(ns[key]) else Absent
  }

  /** `put(key, value)`: the whole value under `key` is replaced; every other key is left alone. */
  function Put(ns: Namespace, key: string, value: Batch): (r: Namespace)
    ensures key in r && r[key] == value
    ensures r.Keys == ns.Keys + {key}
    ensures forall k :: k in ns && k != key ==> r[k] == ns[k]
  {
    ns[key := value]
  }

  /** A put followed by a get of the same key, with no writer in between, returns exactly what was put. */
  lemma PutThenGet(ns: Namespace, key: string, value: Batch)
    ensures Get(Put(ns, key, value), Reachable, key) == Found(value)
  {
  }
}

=== FILE: pipeline.dfy ===
/**
  The refresher and the read endpoint together, as a state machine over the
  key-value namespace. Scheduled runs and read requests arrive in any order;
  the only state they share is the namespace.
 */
module Pipeline {
  import opened Wrappers
  import opened Records
  import opened Kv
  import opened Refresher
  import opened ReadService

  /** A cron trigger (with how each adapter and the `put` turn out), or a GET request. */
  datatype Event = Tick(attempts: seq<Attempt>, put: PutOutcome) | Request(reach: Reachability)

  /** The namespace after one event. A request has no way to write: it yields only a response. */
  function Step(ns: Namespace, e: Event): Namespace {
    match e
    case Tick(attempts, put) => Scheduled(ns, attempts, put).ns
    case Request(_) => ns
  }

  /** The namespace after a whole sequence of events. */
  function Replay(ns: Namespace, trace: seq<Event>): Namespace {
    if trace == [] then ns
    else Step(Replay(ns, trace[..|trace| - 1]), trace[|trace| - 1])
  }

  /** The trace with every read request removed. */
  function TicksOnly(trace: seq<Event>): (r: seq<Event>)
    ensures forall i :: 0 <= i < |r| ==> r[i].Tick?
    ensures |r| <= |trace|
  {
    if trace == [] then []
    else
      var n := |trace| - 1;
      TicksOnly(trace[..n]) + (if trace[n].Tick? then [trace[n]] else [])
  }

  /** Reads never change the store: replaying only the scheduled runs gives the same namespace. */
  lemma {:induction false} ReadsNeverWrite(ns: Namespace, trace: seq<Event>)
    ensures Replay(ns, trace) == Replay(ns, TicksOnly(trace))
  {
    if trace != [] {
      var n := |trace| - 1;
      ReadsNeverWrite(ns, trace[..n]);
      var t := TicksOnly(trace[..n]);
      if trace[n].Tick? {
        assert TicksOnly(trace) == t + [trace[n]];
        assert (t + [trace[n]])[..|t|] == t;
      } else {
        assert TicksOnly(trace) == t;
      }
    }
  }

  /**
    Whether a scheduled run writes: no adapter rejected, some adapter
    returned a record, and the `put` went through.
   */
  predicate Publishes(e: Event) {
    && e.Tick? && e.put == PutOk && !AnyRejects(e.attempts)
    && exists i :: 0 <= i < |e.attempts| && e.attempts[i].Returned?
  }

  /** The records the run's adapters returned, in adapter order. */
  function ReturnedRecords(attempts: seq<Attempt>): Batch {
    if attempts == [] then []
    else
      var n := |attempts| - 1;
      ReturnedRecords(attempts[..n]) + (match attempts[n] case Returned(x) => [x] case _ => [])
  }

  /**
    The last known good batch: the JSON image of what the most recent writing
    run returned, or the initial contents when no run in the trace wrote.
   */
  function LastGood(init: Option<Batch>, trace: seq<Event>): Option<Batch> {
    if trace == [] then init
    else
      var e := trace[|trace| - 1];
      if Publishes(e) then Some(JsonBatch(ReturnedRecords(e.attempts))) else LastGood(init, trace[..|trace| - 1])
  }

  /** The filtered outcomes are the list of records the adapters returned. */
  lemma {:induction false} CollectedBatchIsReturned(attempts: seq<Attempt>)
    ensures Successes(Outcomes(attempts)) == ReturnedRecords(attempts)
  {
    if attempts != [] {
      var n := |attempts| - 1;
      CollectedBatchIsReturned(attempts[..n]);
      assert Outcomes(attempts)[..n] == Outcomes(attempts[..n]);
    }
  }

  /**
    The slot always holds the last known good batch, so a read that reaches
    the store answers 200 with exactly that batch, or 404 when no run has
    ever written and nothing was there to begin with. Failed runs in between
    change nothing.
   */
  lemma {:induction false} ServesLastGood(ns: Namespace, trace: seq<Event>)
    ensures Slot(Replay(ns, trace)) == LastGood(Slot(ns), trace)
    ensures LastGood(Slot(ns), trace).None? ==> OnRequestGet(Replay(ns, trace), Reachable).status == 404
    ensures LastGood(Slot(ns), trace).Some? ==>
      OnRequestGet(Replay(ns, trace), Reachable) == Respond(Found(LastGood(Slot(ns), trace).value))
  {
    if trace != [] {
      var n := |trace| - 1;
      ServesLastGood(ns, trace[..n]);
      var e := trace[n];
      if e.Tick? {
        CollectedBatchIsReturned(e.attempts);
      }
    }
  }

  /** The stored batch is never empty, provided it was not empty before the first run. */
  lemma {:induction false} StoredBatchNeverEmpty(ns: Namespace, trace: seq<Event>)
    requires Slot(ns) != Some([])
    ensures Slot(Replay(ns, trace)) != Some([])
  {
    if trace != [] {
      StoredBatchNeverEmpty(ns, trace[..|trace| - 1]);
    }
  }

  /**
    Round trip: right after a run in which some adapter returned a record and
    the `put` went through, a read answers 200, cacheable, with exactly the
    records returned, in adapter order, as JSON carries them.
   */
  lemma PutThenRead(ns: Namespace, attempts: seq<Attempt>, i: nat)
    requires i < |attempts| && attempts[i].Returned?
    requires forall j :: 0 <= j < |attempts| ==> !attempts[j].ThrewNullish?
    ensures OnRequestGet(Step(ns, Tick(attempts, PutOk)), Reachable)
         == Response(200, Data(JsonBatch(ReturnedRecords(attempts))), [JsonContentType, HourCache])
  {
    CollectedBatchIsReturned(attempts);
  }

  /**
    A run in which every adapter fails, whether it throws an error object or
    a nullish value, changes nothing a reader can see: any read afterwards
    answers exactly as it would have before.
   */
  lemma TotalOutageInvisible(ns: Namespace, attempts: seq<Attempt>, put: PutOutcome, reach: Reachability)
    requires forall i :: 0 <= i < |attempts| ==> !attempts[i].Returned?
    ensures OnRequestGet(Step(ns, Tick(attempts, put)), reach) == OnRequestGet(ns, reach)
  {
  }

  /**
    Once the store holds no unlimited record, it never will: every batch a
    run writes has passed through `JSON.stringify`, which has no `Infinity`,
    so a page never receives `connections === Infinity` from the endpoint.
   */
  lemma {:induction false} StoredNeverUnlimited(ns: Namespace, trace: seq<Event>)
    requires Slot(ns).Some? ==> NoUnlimited(Slot(ns).value)
    ensures Slot(Replay(ns, trace)).Some? ==> NoUnlimited(Slot(Replay(ns, trace)).value)
  {
    if trace != [] {
      var n := |trace| - 1;
      StoredNeverUnlimited(ns, trace[..n]);
      var before := Replay(ns, trace[..n]);
      var e := trace[n];
      if e.Tick? {
        var run := Scheduled(before, e.attempts, e.put);
        if run.outcome.Published? {
          JsonBatchStable(Successes(Outcomes(e.attempts)));
        }
      }
    }
  }

  /** Two adapters, the first returns a record and the second times out: one record is published. */
  lemma OneOfTwoFails(ns: Namespace, a: Record, timeout: string)
    ensures Scheduled(ns, [Returned(a), Threw(timeout)], PutOk) == Run(ns[LatestKey := [JsonImage(a)]], Published(1))
  {
    var attempts := [Returned(a), Threw(timeout)];
    assert !AnyRejects(attempts);
    var outcomes := Outcomes(attempts);
    assert outcomes == [Some(a), None];
    assert outcomes[..1] == [Some(a)];
    assert [Some(a)][..0] == [];
    assert Successes([Some(a)]) == [a];
    assert Successes(outcomes) == [a];
    assert JsonBatch([a]) == [JsonImage(a)];
  }

  /**
    Two adapters, the first returns a record and the second throws `null`:
    `Promise.all` rejects, nothing is written, and the first adapter's record
    is lost with the run.
   */
  lemma NullishThrowLosesRun(ns: Namespace, a: Record, put: PutOutcome)
    ensures Scheduled(ns, [Returned(a), ThrewNullish], put) == Run(ns, Aborted)
  {
    assert [Returned(a), ThrewNullish][1].ThrewNullish?;
  }
}

=== FILE: read_service.dfy ===
/**
  The read endpoint of `functions/api/vpn-data.js`: one `get` of the fixed
  key, answered as 200 with the stored batch, 404 when nothing is stored, or
  500 when the read itself fails. The `json` read and the second
  `JSON.stringify` give back the records the store holds: those are JSON
  images already, and `Records.JsonBatchStable` shows the image of an image
  is itself.
 */
module ReadService {
  import opened Wrappers
  import opened Records
  import opened Kv

  datatype Header = Header(name: string, value: string)

  /** A response body: the stored batch, or a JSON object carrying an `error` message. */
  datatype Body = Data(batch: Batch) | Error(message: string)

  datatype Response = Response(status: int, body: Body, headers: seq<Header>)

  const NoDataMessage: string := "No VPN data available. Please run the updater."
  const FailureMessage: string := "Failed to retrieve VPN data."

  const JsonContentType: Header := Header("Content-Type", "application/json")
  /** Browsers may keep the data for one hour. */
  const HourCache: Header := Header("Cache-Control", "public, max-age=3600")

  /** `headers.get(name)`: the value of the first header with that name. */
  function Lookup(headers: seq<Header>, name: string): Option<string> {
    if headers == [] then None
    else if headers[0].name == name then Some(headers[0].value)
    else Lookup(headers[1..], name)
  }

  /**
    The handler's decision on the outcome of the `get`. A stored batch is
    served as is with the one-hour cache header; a missing value is a 404
    with the "no data" message; a thrown read is a 500 whose body is the
    generic message, whatever the error said. Only the 200 is cacheable.
   */
  function Respond(g: GetOutcome): (r: Response)
    ensures r.status == 200 <==> g.Found?
    ensures r.status == 404 <==> g.Absent?
    ensures r.status == 500 <==> g.GetThrew?
    ensures g.Found? ==> r.body == Data(g.data)
    ensures g.Absent? ==> r.body == Error(NoDataMessage)
    ensures g.GetThrew? ==> r.body == Error(FailureMessage) && r.headers == [JsonContentType]
    ensures Lookup(r.headers, "Content-Type") == Some("application/json")
    ensures Lookup(r.headers, "Cache-Control").Some? <==> r.status == 200
    ensures r.status == 200 ==> Lookup(r.headers, "Cache-Control") == Some("public, max-age=3600")
  {
    match g
    case Found(data) => Response(200, Data(data), [JsonContentType, HourCache])
    case Absent => Response(404, Error(NoDataMessage), [JsonContentType])
    case GetThrew(_) => Response(500, Error(FailureMessage), [JsonContentType])
  }

  /** `onRequestGet`: read the key the refresher writes, then respond. */
  function OnRequestGet(ns: Namespace, reach: Reachability): (r: Response)
    ensures reach.Reachable? && LatestKey in ns ==> r.status == 200 && r.body == Data(ns[LatestKey])
    ensures reach.Reachable? && LatestKey !in ns ==> r.status == 404 && r.body == Error(NoDataMessage)
    ensures reach.Unreachable? ==> r.status == 500 && r.body == Error(FailureMessage)
    ensures Lookup(r.headers, "Cache-Control").Some? <==> r.status == 200
    ensures r.status == 200 ==> Lookup(r.headers, "Cache-Control") == Some("public, max-age=3600")
    ensures Lookup(r.headers, "Content-Type") == Some("application/json")
  {
    Respond(Get(ns, reach, LatestKey))
  }

  /** A failed read is never reported as "no data", and its error detail never reaches the caller. */
  lemma FailureHidesDetail(ns1: Namespace, ns2: Namespace, d1: string, d2: string)
    ensures OnRequestGet(ns1, Unreachable(d1)) == OnRequestGet(ns2, Unreachable(d2))
    ensures OnRequestGet(ns1, Unreachable(d1)).status != 404
  {
  }
}

=== FILE: records.dfy ===
/**
  The provider record shared by the refresher, the read endpoint and the
  comparison table. The refresher stores the records as JSON text and the
  read endpoint and the page parse them back, so what the table receives is
  the JSON image of what an adapter returned: equal to it, except that an
  `Infinity` connection count comes back as `null`.
 */
module Records {
  import opened Wrappers

  /**
    The `connections` field: a device count, `Infinity` for unlimited
    devices, or `null`, which is what `JSON.stringify` writes for `Infinity`.
   */
  datatype Connections = Limited(count: int) | Unlimited | Null

  /**
    One provider's comparison data. `details` holds the `String(...)` rendering
    of every other field the record carries (encryption, protocols, no-logs,
    the yes/no flags, benefits), in field order. The three numeric fields the
    table sorts on are kept typed; `None` means the field is absent. Prices are
    in cents.
   */
  datatype Record = Record(
    provider: string,
    details: seq<string>,
    connections: Option<Connections>,
    countries: Option<int>,
    priceCents: Option<int>)

  /** The records produced by one refresh, in adapter order. */
  type Batch = seq<Record>

  /**
    `JSON.parse(JSON.stringify(r))`: every field survives except an
    `Infinity` connection count, which becomes `null`.
   */
  function JsonImage(r: Record): (j: Record)
    ensures j.connections != Some(Unlimited)
    ensures j.provider == r.provider && j.details == r.details
    ensures j.countries == r.countries && j.priceCents == r.priceCents
    ensures r.connections != Some(Unlimited) ==> j == r
    ensures r.connections == Some(Unlimited) ==> j.connections == Some(Null)
  {
    if r.connections == Some(Unlimited) then r.(connections := Some(Null)) else r
  }

  /** No record in the batch claims unlimited connections. */
  predicate NoUnlimited(b: Batch) {
    forall i :: 0 <= i < |b| ==> b[i].connections != Some(Unlimited)
  }

  /** The JSON image of a whole batch, record by record. */
  function JsonBatch(b: Batch): (j: Batch)
    ensures |j| == |b|
    ensures forall i :: 0 <= i < |j| ==> j[i] == JsonImage(b[i])
  {
    seq(|b|, i requires 0 <= i < |b| => JsonImage(b[i]))
  }

  /**
    Serialising what was parsed changes nothing more: the read endpoint's
    second `JSON.stringify` gives the page the same records the store holds,
    and none of them is unlimited.
   */
  lemma JsonBatchStable(b: Batch)
    ensures JsonBatch(JsonBatch(b)) == JsonBatch(b)
    ensures NoUnlimited(JsonBatch(b))
  {
  }
}

=== FILE: refresher.dfy ===
/**
  The scheduled refresher of `functions/cron/update-data.js`: run every
  provider adapter, keep the records of those that succeeded, and replace the
  stored batch only when at least one did.
 */
module Refresher {
  import opened Wrappers
  import opened Records
  import opened Kv

  /**
    How an adapter's body ended: it returned a record, it threw an error
    object, or it threw `null` or `undefined`. In the last case the `catch`
    block's own `e.message` throws a `TypeError`, so the adapter rejects
    instead of yielding `null`.
   */
  datatype Attempt = Returned(record: Record) | Threw(message: string) | ThrewNullish

  /** How an adapter's promise settles: with a record or `null`, or rejected. */
  datatype Settled = Fulfilled(value: Option<Record>) | Rejected

  /**
    An adapter's `try`/`catch`: a returned record fulfils with it, a thrown
    error object becomes `null`, and a nullish throw escapes the `catch`.
   */
  function Scrape(a: Attempt): (r: Settled)
    ensures r.Rejected? <==> a.ThrewNullish?
    ensures a.Returned? ==> r == Fulfilled(Some(a.record))
    ensures a.Threw? ==> r == Fulfilled(None)
  {
    match a
    case Returned(record) => Fulfilled(Some(record))
    case Threw(_) => Fulfilled(None)
    case ThrewNullish => Rejected
  }

  /** Some adapter rejects. */
  predicate AnyRejects(attempts: seq<Attempt>) {
    exists i :: 0 <= i < |attempts| && attempts[i].ThrewNullish?
  }

  /** Each adapter's result as the filter sees it, when none rejects: its record, or `null`. */
  function Outcomes(attempts: seq<Attempt>): (r: seq<Option<Record>>)
    ensures |r| == |attempts|
    ensures forall i :: 0 <= i < |r| ==> (r[i].Some? <==> attempts[i].Returned?)
    ensures forall i :: 0 <= i < |r| && r[i].Some? ==> r[i].value == attempts[i].record
  {
    seq(|attempts|, i requires 0 <= i < |attempts| =>
      match attempts[i] case Returned(x) => Some(x) case _ => None)
  }

  /**
    `Promise.all` over the adapters: it rejects as soon as one adapter
    rejects, and otherwise yields one settled value per adapter, in adapter
    order.
   */
  function Collect(attempts: seq<Attempt>): (r: Option<seq<Option<Record>>>)
    ensures r.None? <==> AnyRejects(attempts)
    ensures r.Some? ==> r.value == Outcomes(attempts)
    ensures r.Some? ==> forall i :: 0 <= i < |attempts| ==> Scrape(attempts[i]) == Fulfilled(r.value[i])
  {
    if AnyRejects(attempts) then None else Some(Outcomes(attempts))
  }

  /** Every adapter failed. */
  predicate AllFailed(outcomes: seq<Option<Record>>) {
    forall i :: 0 <= i < |outcomes| ==> outcomes[i].None?
  }

  /** `filter(p => p !== null)`: the records of the adapters that succeeded. */
  function Successes(outcomes: seq<Option<Record>>): (r: Batch)
    ensures |r| <= |outcomes|
    ensures |r| == 0 <==> AllFailed(outcomes)
  {
    if outcomes == [] then []
    else
      var last := outcomes[|outcomes| - 1];
      var front := outcomes[..|outcomes| - 1];
      match last
      case None => Successes(front)
      case Some(x) => Successes(front) + [x]
  }

  /** The positions of the adapters that succeeded, in increasing order. */
  function SuccessIndices(outcomes: seq<Option<Record>>): seq<nat> {
    if outcomes == [] then []
    else
      var n := |outcomes| - 1;
      SuccessIndices(outcomes[..n]) + (if outcomes[n].Some? then [n] else [])
  }

  /**
    `batch` lists exactly the successful outcomes, in adapter order:
    its `j`-th record is the outcome at position `idx[j]`, the positions
    increase, and every successful position appears among them.
   */
  ghost predicate ExactlyInOrder(outcomes: seq<Option<Record>>, batch: Batch, idx: seq<nat>) {
    && |idx| == |batch|
    && (forall j :: 0 <= j < |idx| ==> idx[j] < |outcomes| && outcomes[idx[j]] == Some(batch[j]))
    && (forall j, k :: 0 <= j < k < |idx| ==> idx[j] < idx[k])
    && (forall i :: 0 <= i < |outcomes| ==> (outcomes[i].Some? <==> i in idx))
  }

  /** The batch is exactly the non-null adapter results, in adapter order, and nothing else. */
  lemma {:induction false} SuccessesExactlyInOrder(outcomes: seq<Option<Record>>)
    ensures ExactlyInOrder(outcomes, Successes(outcomes), SuccessIndices(outcomes))
  {
    if outcomes != [] {
      var n := |outcomes| - 1;
      var front := outcomes[..n];
      var last := outcomes[n];
      SuccessesExactlyInOrder(front);
      assert outcomes == front + [last];
      assert Successes(outcomes) == Successes(front) + (if last.Some? then [last.value] else []);
      assert SuccessIndices(outcomes) == SuccessIndices(front) + (if last.Some? then [n] else []);
      ExactlyInOrderStep(front, last, Successes(front), SuccessIndices(front));
    }
  }

  /** One more outcome extends the batch and its positions at the end, or not at all. */
  lemma ExactlyInOrderStep(front: seq<Option<Record>>, last: Option<Record>, batch: Batch, idx: seq<nat>)
    requires ExactlyInOrder(front, batch, idx)
    ensures ExactlyInOrder(front + [last],
                           batch + (if last.Some? then [last.value] else []),
                           idx + (if last.Some? then [|front|] else []))
  {
    var outcomes := front + [last];
    var n := |front|;
    var batch' := batch + (if last.Some? then [last.value] else []);
    var idx' := idx + (if last.Some? then [n] else []);
    forall j | 0 <= j < |idx'|
      ensures idx'[j] < |outcomes| && outcomes[idx'[j]] == Some(batch'[j])
    {
      if j < |idx| {
        assert idx'[j] == idx[j] && batch'[j] == batch[j];
      }
    }
    forall i | 0 <= i < |outcomes|
      ensures outcomes[i].Some? <==> i in idx'
    {
      if i < n {
        assert outcomes[i] == front[i];
      } else {
        assert forall j :: 0 <= j < |idx| ==> idx[j] < n;
      }
    }
  }

  /** A record is in the batch exactly when some adapter returned it. */
  lemma {:induction false} SuccessMembership(outcomes: seq<Option<Record>>)
    ensures forall x :: x in Successes(outcomes) <==> Some(x) in outcomes
  {
    if outcomes != [] {
      var n := |outcomes| - 1;
      SuccessMembership(outcomes[..n]);
      assert outcomes == outcomes[..n] + [outcomes[n]];
    }
  }

  /** Filtering distributes over concatenation of the adapter list. */
  lemma {:induction false} SuccessesAppend(a: seq<Option<Record>>, b: seq<Option<Record>>)
    ensures Successes(a + b) == Successes(a) + Successes(b)
    decreases |b|
  {
    if b != [] {
      var n := |b| - 1;
      SuccessesAppend(a, b[..n]);
      assert (a + b)[..|a + b| - 1] == a + b[..n];
      assert (a + b)[|a + b| - 1] == b[n];
    } else {
      assert a + b == a;
    }
  }

  /**
    Failures are independent: turning adapter `i`'s outcome into `null`
    removes that adapter's record and nothing else; the records before and
    after it stay, in the same order.
   */
  lemma FailureIsIndependent(outcomes: seq<Option<Record>>, i: nat)
    requires i < |outcomes|
    ensures outcomes[i].Some? ==>
      Successes(outcomes) == Successes(outcomes[..i]) + [outcomes[i].value] + Successes(outcomes[i + 1..])
    ensures Successes(outcomes[i := None]) == Successes(outcomes[..i]) + Successes(outcomes[i + 1..])
  {
    var front, back := outcomes[..i], outcomes[i + 1..];
    assert outcomes == front + [outcomes[i]] + back;
    assert outcomes[i := None] == front + [None] + back;
    SuccessesAppend(front + [outcomes[i]], back);
    SuccessesAppend(front, [outcomes[i]]);
    SuccessesAppend(front + [None], back);
    SuccessesAppend(front, [None]);
    assert Successes([None]) == [];
  }

  /** Whether the awaited `put` resolved or rejected. */
  datatype PutOutcome = PutOk | PutThrew

  /**
    How one run of `scheduled` ended: the batch was written, nothing was
    written because every adapter failed, the `put` rejected and the error
    escaped the handler, or an adapter rejected, so `Promise.all` rejected
    before anything was filtered or written.
   */
  datatype RunOutcome = Published(count: nat) | Skipped | PutFailed | Aborted

  datatype Run = Run(ns: Namespace, outcome: RunOutcome)

  /**
    The body of `scheduled` after the adapters have settled: filter out the
    failures, and `put` the survivors under the fixed key only when there is
    at least one. A total outage leaves the store as it was, whether it held
    a batch or nothing; a write replaces the old batch outright. What is
    written is the batch's JSON text, modelled by its JSON image.
   */
  function Refresh(ns: Namespace, outcomes: seq<Option<Record>>, put: PutOutcome): (r: Run)
    ensures r.outcome.Skipped? <==> AllFailed(outcomes)
    ensures r.outcome.Published? <==> !AllFailed(outcomes) && put == PutOk
    ensures !r.outcome.Published? ==> r.ns == ns
    ensures r.outcome.Published? ==>
      && Slot(r.ns) == Some(JsonBatch(Successes(outcomes)))
      && r.outcome.count == |Successes(outcomes)|
      && 0 < r.outcome.count <= |outcomes|
    ensures forall k :: k != LatestKey ==> (k in r.ns <==> k in ns)
    ensures forall k :: k != LatestKey && k in ns ==> r.ns[k] == ns[k]
  {
    var batch := Successes(outcomes);
    if |batch| > 0 then
      match put
      case PutOk => Run(Put(ns, LatestKey, JsonBatch(batch)), Published(|batch|))
      case PutThrew => Run(ns, PutFailed)
    else
      Run(ns, Skipped)
  }

  /**
    `scheduled` as a whole: the adapters' attempts are collected, then the
    refresh decides. A rejecting adapter aborts the run, and the records of
    every other adapter are lost with it.
   */
  function Scheduled(ns: Namespace, attempts: seq<Attempt>, put: PutOutcome): (r: Run)
    ensures r.outcome.Aborted? <==> AnyRejects(attempts)
    ensures r.outcome.Skipped? <==> forall i :: 0 <= i < |attempts| ==> attempts[i].Threw?
    ensures r.outcome.Published? <==>
      !AnyRejects(attempts) && put == PutOk && exists i :: 0 <= i < |attempts| && attempts[i].Returned?
    ensures r.outcome.PutFailed? <==>
      !AnyRejects(attempts) && put == PutThrew && exists i :: 0 <= i < |attempts| && attempts[i].Returned?
    ensures !r.outcome.Published? ==> r.ns == ns
    ensures r.outcome.Published? ==> Slot(r.ns) == Some(JsonBatch(Successes(Outcomes(attempts))))
    ensures forall k :: k != LatestKey ==> (k in r.ns <==> k in ns)
    ensures forall k :: k != LatestKey && k in ns ==> r.ns[k] == ns[k]
  {
    match Collect(attempts)
    case None =>
      assert !forall i :: 0 <= i < |attempts| ==> attempts[i].Threw?;
      Run(ns, Aborted)
    case Some(outcomes) =>
      assert AllFailed(outcomes) <==> forall i :: 0 <= i < |attempts| ==> attempts[i].Threw?;
      Refresh(ns, outcomes, put)
  }

  /**
    The stored batch after a write depends only on this run's outcomes: two
    stores that differed before the run agree on the slot after it, so no
    record of an earlier run survives a write: every stored record is the
    JSON image of a record some adapter returned in this run.
   */
  lemma ReplacedNotMerged(ns1: Namespace, ns2: Namespace, outcomes: seq<Option<Record>>)
    requires !AllFailed(outcomes)
    ensures Slot(Refresh(ns1, outcomes, PutOk).ns) == Slot(Refresh(ns2, outcomes, PutOk).ns)
    ensures forall x :: x in Slot(Refresh(ns1, outcomes, PutOk).ns).value ==>
      exists y :: Some(y) in outcomes && x == JsonImage(y)
  {
    SuccessMembership(outcomes);
    var batch := Successes(outcomes);
    forall x | x in Slot(Refresh(ns1, outcomes, PutOk).ns).value
      ensures exists y :: Some(y) in outcomes && x == JsonImage(y)
    {
      var k :| 0 <= k < |JsonBatch(batch)| && JsonBatch(batch)[k] == x;
      assert batch[k] in batch;
    }
  }
}

=== FILE: sorting.dfy ===
/**
  The table's three sort orders. Each is an `Array.prototype.sort` call with
  a comparator that subtracts two numeric keys; the model keeps only the
  comparator's sign. `Array.prototype.sort` is stable, so rows whose keys
  compare equal keep their relative order; the model sorts by stable
  insertion.
 */
module Sorting {
  import opened Wrappers
  import opened Records

  /** The recognised values of the sort selector. */
  datatype SortKey = ByPrice | ByConnections | ByCountries

  function SortKeyOf(value: string): (k: Option<SortKey>)
    ensures k == Some(ByPrice) <==> value == "price"
    ensures k == Some(ByConnections) <==> value == "connections"
    ensures k == Some(ByCountries) <==> value == "countries"
  {
    if value == "price" then Some(ByPrice)
    else if value == "connections" then Some(ByConnections)
    else if value == "countries" then Some(ByCountries)
    else None
  }

  /** A sort key: an integer, or `Infinity` for unlimited connections. */
  datatype Magnitude = Finite(n: int) | Infinite

  /**
    `a <= b` on keys. Two infinite keys compare equal: their difference is
    `NaN`, which the sort treats like `0`.
   */
  predicate AtMost(a: Magnitude, b: Magnitude) {
    match (a, b)
    case (_, Infinite) => true
    case (Infinite, Finite(_)) => false
    case (Finite(x), Finite(y)) => x <= y
  }

  /** The price used when a record has no price or a price of zero: 9999 dollars. */
  const MissingPriceCents: int := 999900

  /**
    The key each order compares: `price || 9999`, `connections || 0` and
    `countries || 0`. An absent field and a zero both fall back to the default,
    and so does a `null` connection count, which is what an unlimited one
    becomes once it has been through JSON.
   */
  function Rank(k: SortKey, r: Record): Magnitude
  {
    match k
    case ByPrice =>
      (match r.priceCents
       case Some(p) => if p == 0 then Finite(MissingPriceCents) else Finite(p)
       case None => Finite(MissingPriceCents))
    case ByConnections =>
      (match r.connections
       case Some(Unlimited) => Infinite
       case Some(Limited(n)) => Finite(n)
       case Some(Null) => Finite(0)
       case None => Finite(0))
    case ByCountries =>
      (match r.countries
       case Some(n) => Finite(n)
       case None => Finite(0))
  }

  /**
    What each key means: only an unlimited connection count ranks as
    infinite; a price key is never zero and is the price itself when there is
    one; absent fields, and a `null` connection count, rank as zero.
   */
  lemma RankDefaults(k: SortKey, r: Record)
    ensures Rank(k, r).Infinite? <==> k == ByConnections && r.connections == Some(Unlimited)
    ensures k == ByPrice ==> Rank(k, r).n != 0
    ensures k == ByPrice && r.priceCents.Some? && r.priceCents.value != 0 ==> Rank(k, r) == Finite(r.priceCents.value)
    ensures k == ByPrice && (r.priceCents.None? || r.priceCents == Some(0)) ==> Rank(k, r) == Finite(MissingPriceCents)
    ensures k == ByConnections && r.connections.Some? && r.connections.value.Limited? ==>
      Rank(k, r) == Finite(r.connections.value.count)
    ensures k == ByConnections && (r.connections.None? || r.connections == Some(Null)) ==> Rank(k, r) == Finite(0)
    ensures k == ByCountries && r.countries.Some? ==> Rank(k, r) == Finite(r.countries.value)
    ensures k == ByCountries && r.countries.None? ==> Rank(k, r) == Finite(0)
  {
  }

  /**
    `a` may stay in front of `b`: the comparator's result for `(a, b)` is not
    positive. Price ascends; connections and countries descend.
   */
  predicate Before(k: SortKey, a: Record, b: Record) {
    if k == ByPrice then AtMost(Rank(k, a), Rank(k, b)) else AtMost(Rank(k, b), Rank(k, a))
  }

  /** The comparator returns zero: neither row has to move past the other. */
  predicate Tied(k: SortKey, a: Record, b: Record) {
    Before(k, a, b) && Before(k, b, a)
  }

  lemma BeforeTotal(k: SortKey, a: Record, b: Record)
    ensures Before(k, a, b) || Before(k, b, a)
  {
  }

  lemma BeforeTransitive(k: SortKey, a: Record, b: Record, c: Record)
    requires Before(k, a, b) && Before(k, b, c)
    ensures Before(k, a, c)
  {
  }

  ghost predicate Sorted(k: SortKey, s: seq<Record>) {
    forall i, j :: 0 <= i < j < |s| ==> Before(k, s[i], s[j])
  }

  /** Place `x` after every row it need not precede, in front of the first row that must come after it. */
  function Insert(k: SortKey, x: Record, s: seq<Record>): seq<Record> {
    if s == [] then [x]
    else if Before(k, s[0], x) then [s[0]] + Insert(k, x, s[1..])
    else [x] + s
  }

  /** Insertion adds `x` and keeps every row already there. */
  lemma {:induction false} InsertCounts(k: SortKey, x: Record, s: seq<Record>)
    ensures multiset(Insert(k, x, s)) == multiset(s) + multiset{x}
  {
    if s != [] && Before(k, s[0], x) {
      InsertCounts(k, x, s[1..]);
      assert s == [s[0]] + s[1..];
    }
  }

  /** A row that may precede every row of a sorted sequence can be put in front of it. */
  lemma SortedCons(k: SortKey, y: Record, t: seq<Record>)
    requires Sorted(k, t)
    requires forall j :: 0 <= j < |t| ==> Before(k, y, t[j])
    ensures Sorted(k, [y] + t)
  {
    var r := [y] + t;
    forall i, j | 0 <= i < j < |r| ensures Before(k, r[i], r[j]) {
      assert r[j] == t[j - 1];
      if i > 0 {
        assert r[i] == t[i - 1];
      }
    }
  }

  /** Insertion into a sorted sequence keeps it sorted. */
  lemma {:induction false} InsertSorted(k: SortKey, x: Record, s: seq<Record>)
    requires Sorted(k, s)
    ensures Sorted(k, Insert(k, x, s))
  {
    if s == [] {
    } else if Before(k, s[0], x) {
      var rest := Insert(k, x, s[1..]);
      SortedTail(k, s);
      InsertSorted(k, x, s[1..]);
      InsertCounts(k, x, s[1..]);
      forall j | 0 <= j < |rest| ensures Before(k, s[0], rest[j]) {
        assert rest[j] in multiset(rest);
        assert rest[j] in multiset(s[1..]) || rest[j] == x;
      }
      SortedCons(k, s[0], rest);
    } else {
      BeforeTotal(k, s[0], x);
      forall j | 0 <= j < |s| ensures Before(k, x, s[j]) {
        if j > 0 {
          BeforeTransitive(k, x, s[0], s[j]);
        }
      }
      SortedCons(k, x, s);
    }
  }

  /** The stable sort under order `k`. */
  function SortBy(k: SortKey, s: seq<Record>): seq<Record> {
    if s == [] then []
    else Insert(k, s[|s| - 1], SortBy(k, s[..|s| - 1]))
  }

  /** The sort's result is ordered by the comparator. */
  lemma {:induction false} SortBySorted(k: SortKey, s: seq<Record>)
    ensures Sorted(k, SortBy(k, s))
  {
    if s != [] {
      SortBySorted(k, s[..|s| - 1]);
      InsertSorted(k, s[|s| - 1], SortBy(k, s[..|s| - 1]));
    }
  }

  /** The sort's result is a permutation of its input. */
  lemma {:induction false} SortByCounts(k: SortKey, s: seq<Record>)
    ensures multiset(SortBy(k, s)) == multiset(s)
  {
    if s != [] {
      var n := |s| - 1;
      SortByCounts(k, s[..n]);
      InsertCounts(k, s[n], SortBy(k, s[..n]));
      LastSplitCounts(s);
    }
  }

  /** A non-empty sequence holds its front and its last element. */
  lemma LastSplitCounts(s: seq<Record>)
    requires s != []
    ensures multiset(s) == multiset(s[..|s| - 1]) + multiset{s[|s| - 1]}
  {
    assert s == s[..|s| - 1] + [s[|s| - 1]];
  }

  /**
    Under the connections order, a provider with unlimited connections is
    never preceded by one without: every row in front of it is unlimited too.
   */
  lemma UnlimitedComeFirst(s: seq<Record>, i: nat, j: nat)
    requires Sorted(ByConnections, s) && i < j < |s|
    requires s[j].connections == Some(Unlimited)
    ensures s[i].connections == Some(Unlimited)
  {
    assert Before(ByConnections, s[i], s[j]);
  }

  /**
    What the page actually receives for an unlimited provider is its JSON
    image, whose connection count is `null`: it ranks as zero devices, so
    under the connections order it goes behind every provider with a
    positive count instead of in front.
   */
  lemma UnlimitedArrivesAsZero(a: Record, b: Record)
    requires a.connections == Some(Unlimited)
    requires b.connections.Some? && b.connections.value.Limited? && b.connections.value.count > 0
    ensures Rank(ByConnections, JsonImage(a)) == Finite(0)
    ensures !Before(ByConnections, JsonImage(a), JsonImage(b))
  {
  }

  /**
    Under the price order, a provider whose price is absent or zero is
    ranked at 9999 dollars, so only rows priced at 9999 dollars or more, or
    also unpriced, may follow it.
   */
  lemma UnpricedGoLast(s: seq<Record>, i: nat, j: nat)
    requires Sorted(ByPrice, s) && i < j < |s|
    requires s[i].priceCents.None? || s[i].priceCents == Some(0)
    ensures s[j].priceCents.None? || s[j].priceCents == Some(0) || s[j].priceCents.value >= MissingPriceCents
  {
    assert Before(ByPrice, s[i], s[j]);
  }

  /** The rows of `s` that tie with `x` under `k`, in their order in `s`. */
  function TiedWith(k: SortKey, s: seq<Record>, x: Record): seq<Record> {
    if s == [] then []
    else (if Tied(k, s[0], x) then [s[0]] else []) + TiedWith(k, s[1..], x)
  }

  lemma {:induction false} TiedWithAppend(k: SortKey, a: seq<Record>, b: seq<Record>, x: Record)
    ensures TiedWith(k, a + b, x) == TiedWith(k, a, x) + TiedWith(k, b, x)
  {
    if a != [] {
      TiedWithAppend(k, a[1..], b, x);
      assert (a + b)[1..] == a[1..] + b;
    } else {
      assert a + b == b;
    }
  }

  lemma {:induction false} NoneTied(k: SortKey, s: seq<Record>, x: Record)
    requires forall i :: 0 <= i < |s| ==> !Tied(k, s[i], x)
    ensures TiedWith(k, s, x) == []
  {
    if s != [] {
      NoneTied(k, s[1..], x);
    }
  }

  lemma SortedTail(k: SortKey, s: seq<Record>)
    requires Sorted(k, s) && s != []
    ensures Sorted(k, s[1..])
  {
    forall i, j | 0 <= i < j < |s[1..]| ensures Before(k, s[1..][i], s[1..][j]) {
      assert s[1..][i] == s[i + 1] && s[1..][j] == s[j + 1];
    }
  }

  /** When `y` must precede the first row of a sorted sequence, no row of it ties with anything `y` ties with. */
  lemma NothingTiesAfter(k: SortKey, y: Record, s: seq<Record>, x: Record)
    requires Sorted(k, s) && s != [] && !Before(k, s[0], y) && Tied(k, y, x)
    ensures TiedWith(k, s, x) == []
  {
    forall i | 0 <= i < |s| ensures !Tied(k, s[i], x) {
      if Tied(k, s[i], x) {
        if i > 0 {
          BeforeTransitive(k, s[0], s[i], x);
        }
        BeforeTransitive(k, s[0], x, y);
        assert false;
      }
    }
    NoneTied(k, s, x);
  }

  /** Inserting `y` appends it to its own tie class and leaves every other class as it was. */
  lemma {:induction false} InsertKeepsTies(k: SortKey, y: Record, s: seq<Record>, x: Record)
    requires Sorted(k, s)
    ensures TiedWith(k, Insert(k, y, s), x) == TiedWith(k, s, x) + (if Tied(k, y, x) then [y] else [])
  {
    if s == [] {
      TiedWithCons(k, y, [], x);
    } else if Before(k, s[0], y) {
      SortedTail(k, s);
      InsertKeepsTies(k, y, s[1..], x);
      InsertBehindHead(k, y, s, x);
    } else {
      InsertInFront(k, y, s, x);
    }
  }

  /** The step of `InsertKeepsTies` where `y` goes behind the first row. */
  lemma InsertBehindHead(k: SortKey, y: Record, s: seq<Record>, x: Record)
    requires s != [] && Before(k, s[0], y)
    requires TiedWith(k, Insert(k, y, s[1..]), x) == TiedWith(k, s[1..], x) + (if Tied(k, y, x) then [y] else [])
    ensures TiedWith(k, Insert(k, y, s), x) == TiedWith(k, s, x) + (if Tied(k, y, x) then [y] else [])
  {
    var rest := s[1..];
    var inserted := Insert(k, y, rest);
    assert Insert(k, y, s) == [s[0]] + inserted;
    assert s == [s[0]] + rest;
    SameHeadTies(k, s[0], inserted, rest, x, if Tied(k, y, x) then [y] else []);
  }

  /** Putting the same row in front of two sequences keeps how their tie classes differ. */
  lemma SameHeadTies(k: SortKey, h: Record, a: seq<Record>, b: seq<Record>, x: Record, extra: seq<Record>)
    requires TiedWith(k, a, x) == TiedWith(k, b, x) + extra
    ensures TiedWith(k, [h] + a, x) == TiedWith(k, [h] + b, x) + extra
  {
    TiedWithCons(k, h, a, x);
    TiedWithCons(k, h, b, x);
  }

  /** The step of `InsertKeepsTies` where `y` goes in front of every row. */
  lemma InsertInFront(k: SortKey, y: Record, s: seq<Record>, x: Record)
    requires Sorted(k, s) && s != [] && !Before(k, s[0], y)
    ensures TiedWith(k, Insert(k, y, s), x) == TiedWith(k, s, x) + (if Tied(k, y, x) then [y] else [])
  {
    assert Insert(k, y, s) == [y] + s;
    TiedWithCons(k, y, s, x);
    if Tied(k, y, x) {
      NothingTiesAfter(k, y, s, x);
    }
  }

  /** The rows tied with `x` in a sequence with a given first row. */
  lemma TiedWithCons(k: SortKey, a: Record, s: seq<Record>, x: Record)
    ensures TiedWith(k, [a] + s, x) == (if Tied(k, a, x) then [a] else []) + TiedWith(k, s, x)
  {
    assert ([a] + s)[1..] == s;
  }

  /** Stability for every tie class at once. */
  lemma SortIsStableForAll(k: SortKey, s: seq<Record>)
    ensures forall x :: TiedWith(k, SortBy(k, s), x) == TiedWith(k, s, x)
  {
    forall x {
      SortIsStable(k, s, x);
    }
  }

  /** Stability: rows that tie under `k` come out in the order they went in. */
  lemma {:induction false} SortIsStable(k: SortKey, s: seq<Record>, x: Record)
    ensures TiedWith(k, SortBy(k, s), x) == TiedWith(k, s, x)
  {
    if s != [] {
      var n := |s| - 1;
      var front, last := s[..n], s[n];
      SortIsStable(k, front, x);
      SortBySorted(k, front);
      InsertKeepsTies(k, last, SortBy(k, front), x);
      assert s == front + [last];
      TiedWithAppend(k, front, [last], x);
      TiedWithSingle(k, last, x);
    }
  }

  lemma TiedWithSingle(k: SortKey, y: Record, x: Record)
    ensures TiedWith(k, [y], x) == if Tied(k, y, x) then [y] else []
  {
    assert [y][1..] == [];
  }

  /**
    The sort step of `renderTable`: a recognised selector value sorts the
    rows by its key; any other value leaves them in the order they came.
    Either way the rows are only reordered.
   */
  function ApplySort(value: string, rows: seq<Record>): (r: seq<Record>)
    ensures multiset(r) == multiset(rows)
    ensures SortKeyOf(value).None? ==> r == rows
    ensures SortKeyOf(value).Some? ==> Sorted(SortKeyOf(value).value, r)
    ensures SortKeyOf(value).Some? ==>
      forall x :: TiedWith(SortKeyOf(value).value, r, x) == TiedWith(SortKeyOf(value).value, rows, x)
  {
    match SortKeyOf(value)
    case Some(k) =>
      SortBySorted(k, rows);
      SortByCounts(k, rows);
      SortIsStableForAll(k, rows);
      SortBy(k, rows)
    case None => rows
  }
}

=== FILE: table.dfy ===
/**
  The pure part of `renderTable` in `public/script.js`: which providers are
  shown, in which order, and what the select-all button says, lifted out of
  the DOM. The page is reduced to the table body and the button label.
 */
module Table {
  import opened Wrappers
  import opened Records
  import opened Text
  import opened Chips
  import opened Sorting

  /** `a` can be obtained from `b` by deleting elements. */
  ghost predicate IsSubsequence<T>(a: seq<T>, b: seq<T>)
    decreases |b|
  {
    a == [] ||
    (b != [] &&
     ((a[|a| - 1] == b[|b| - 1] && IsSubsequence(a[..|a| - 1], b[..|b| - 1]))
      || IsSubsequence(a, b[..|b| - 1])))
  }

  /**
    `Array.prototype.filter`: the elements that pass `keep`, in their
    original order, each as often as it occurs in `s`.
   */
  function Filter<T>(s: seq<T>, keep: T -> bool): (r: seq<T>)
    ensures |r| <= |s|
    ensures forall i :: 0 <= i < |r| ==> keep(r[i])
  {
    if s == [] then []
    else
      var n := |s| - 1;
      Filter(s[..n], keep) + (if keep(s[n]) then [s[n]] else [])
  }

  /** `Filter` keeps every passing element as often as it occurs, and nothing else. */
  lemma {:induction false} FilterCounts<T(!new)>(s: seq<T>, keep: T -> bool)
    ensures forall x :: multiset(Filter(s, keep))[x] == if keep(x) then multiset(s)[x] else 0
  {
    if s != [] {
      var n := |s| - 1;
      FilterCounts(s[..n], keep);
      assert s == s[..n] + [s[n]];
    }
  }

  lemma {:induction false} SubsequenceTransitive<T>(a: seq<T>, b: seq<T>, c: seq<T>)
    requires IsSubsequence(a, b) && IsSubsequence(b, c)
    ensures IsSubsequence(a, c)
    decreases |c|
  {
    if a == [] {
    } else if b == [] {
      assert false;
    } else if c == [] {
      assert false;
    } else {
      var a', b', c' := a[..|a| - 1], b[..|b| - 1], c[..|c| - 1];
      if b[|b| - 1] == c[|c| - 1] && IsSubsequence(b', c') {
        if a[|a| - 1] == b[|b| - 1] && IsSubsequence(a', b') {
          SubsequenceTransitive(a', b', c');
        } else {
          SubsequenceTransitive(a, b', c');
        }
      } else {
        SubsequenceTransitive(a, b, c');
      }
    }
  }

  /** What `Filter` keeps stays in its original order. */
  lemma {:induction false} FilterIsSubsequence<T>(s: seq<T>, keep: T -> bool)
    ensures IsSubsequence(Filter(s, keep), s)
  {
    if s != [] {
      var n := |s| - 1;
      var front := Filter(s[..n], keep);
      FilterIsSubsequence(s[..n], keep);
      var r := Filter(s, keep);
      if keep(s[n]) {
        assert r == front + [s[n]];
        assert r[..|r| - 1] == front;
      } else {
        assert r == front;
        if r != [] {
          assert s[..|s| - 1] == s[..n];
        }
      }
    }
  }

  /** What holds of every element of `s` holds of every element a filter keeps. */
  lemma {:induction false} FilterPreserves<T>(s: seq<T>, keep: T -> bool, p: T -> bool)
    requires forall i :: 0 <= i < |s| ==> p(s[i])
    ensures forall i :: 0 <= i < |Filter(s, keep)| ==> p(Filter(s, keep)[i])
  {
    if s != [] {
      var n := |s| - 1;
      FilterPreserves(s[..n], keep, p);
    }
  }

  /** `selected.includes(p.provider)`. */
  function IsSelected(selected: seq<string>): Record -> bool {
    (p: Record) => p.provider in selected
  }

  /**
    `Object.values(p).map(String)`: one text per field the record carries,
    the provider's name first. `String(Infinity)` is `"Infinity"`, and
    `String(null)` is `"null"`, which is what a search sees for an unlimited
    provider once the record has been through JSON.
   */
  function FieldTexts(p: Record): (r: seq<string>)
    ensures |r| == 1 + |p.details| + (if p.connections.Some? then 1 else 0)
      + (if p.countries.Some? then 1 else 0) + (if p.priceCents.Some? then 1 else 0)
    ensures r[0] == p.provider && r[1..1 + |p.details|] == p.details
    ensures p.connections == Some(Unlimited) ==> r[1 + |p.details|] == "Infinity"
    ensures p.connections == Some(Null) ==> r[1 + |p.details|] == "null"
    ensures p.connections.Some? && p.connections.value.Limited? ==>
      r[1 + |p.details|] == IntString(p.connections.value.count)
    ensures p.countries.Some? ==> IntString(p.countries.value) in r
    ensures p.priceCents.Some? ==> PriceString(p.priceCents.value) in r
  {
    var head := [p.provider] + p.details;
    var connections := match p.connections
      case Some(Unlimited) => ["Infinity"]
      case Some(Limited(n)) => [IntString(n)]
      case Some(Null) => ["null"]
      case None => [];
    var countries := match p.countries case Some(n) => [IntString(n)] case None => [];
    var price := match p.priceCents case Some(c) => [PriceString(c)] case None => [];
    var rest := connections + countries + price;
    assert head[1..] == p.details;
    assert (head + rest)[..|head|] == head;
    assert |connections| == 1 ==> (head + rest)[|head|] == connections[0];
    assert |countries| == 1 ==> countries[0] in rest;
    assert |price| == 1 ==> price[0] in rest;
    head + rest
  }

  /** Some text, once lower-cased, contains `q`. */
  ghost predicate SomeTextContains(texts: seq<string>, q: string) {
    exists j :: 0 <= j < |texts| && Occurs(Lower(texts[j]), q)
  }

  /** `.some(v => String(v).toLowerCase().includes(q))`. */
  function AnyFieldIncludes(texts: seq<string>, q: string): (b: bool)
    ensures b <==> SomeTextContains(texts, q)
  {
    if texts == [] then false
    else Includes(Lower(texts[0]), q) || AnyFieldIncludes(texts[1..], q)
  }

  /**
    The search looks at every field: a query found in the provider's name,
    in any other text field, or in the text of a present count or price
    matches the record.
   */
  lemma SearchCoversEveryField(p: Record, q: string, t: string)
    requires t == p.provider || t in p.details
      || (p.connections.Some? && p.connections.value.Limited? && t == IntString(p.connections.value.count))
      || (p.countries.Some? && t == IntString(p.countries.value))
      || (p.priceCents.Some? && t == PriceString(p.priceCents.value))
    requires Occurs(Lower(t), q)
    ensures AnyFieldIncludes(FieldTexts(p), q)
  {
    var texts := FieldTexts(p);
    var j :| 0 <= j < |texts| && texts[j] == t by {
      if t == p.provider {
        assert texts[0] == t;
      } else if t in p.details {
        var d :| 0 <= d < |p.details| && p.details[d] == t;
        assert texts[1 + d] == texts[1..1 + |p.details|][d];
      } else if p.connections.Some? && p.connections.value.Limited? && t == IntString(p.connections.value.count) {
        assert texts[1 + |p.details|] == t;
      } else {
        assert t in texts;
      }
    }
    assert SomeTextContains(texts, q);
  }

  function MatchesQuery(q: string): Record -> bool {
    (p: Record) => AnyFieldIncludes(FieldTexts(p), q)
  }

  /** The search box's value as the table uses it: trimmed, then lower-cased. */
  function NormalizedQuery(search: string): string {
    Lower(Trim(search))
  }

  /** Whether a provider row survives both filters. */
  predicate Shown(p: Record, selected: seq<string>, q: string) {
    p.provider in selected && (q == [] || MatchesQuery(q)(p))
  }

  /** The providers that pass the selection filter and then, unless `q` is blank, the search, in provider order. */
  function Matching(providers: seq<Record>, selected: seq<string>, q: string): (r: seq<Record>)
    ensures |r| <= |providers|
    ensures q != [] ==> forall i :: 0 <= i < |r| ==> AnyFieldIncludes(FieldTexts(r[i]), q)
    ensures forall i :: 0 <= i < |r| ==> r[i].provider in selected
  {
    var bySelection := Filter(providers, IsSelected(selected));
    FilterPreserves(bySelection, MatchesQuery(q), IsSelected(selected));
    if q != [] then Filter(bySelection, MatchesQuery(q)) else bySelection
  }

  /** Each row that passes both filters is kept as often as it occurs among the providers; no other row is. */
  lemma MatchingCounts(providers: seq<Record>, selected: seq<string>, q: string)
    ensures forall x :: multiset(Matching(providers, selected, q))[x] == (if Shown(x, selected, q) then multiset(providers)[x] else 0)
  {
    var bySelection := Filter(providers, IsSelected(selected));
    FilterCounts(providers, IsSelected(selected));
    if q != [] {
      FilterCounts(bySelection, MatchesQuery(q));
    }
  }

  /** Both filters keep the rows in provider order. */
  lemma MatchingIsSubsequence(providers: seq<Record>, selected: seq<string>, q: string)
    ensures IsSubsequence(Matching(providers, selected, q), providers)
  {
    var bySelection := Filter(providers, IsSelected(selected));
    FilterIsSubsequence(providers, IsSelected(selected));
    if q != [] {
      FilterIsSubsequence(bySelection, MatchesQuery(q));
      SubsequenceTransitive(Matching(providers, selected, q), bySelection, providers);
    }
  }

  /**
    The rows `renderTable` would draw: the providers whose box is ticked,
    narrowed by the search text unless it is blank after trimming, then
    sorted by the selector. Each row that passes both filters appears as
    often as in `providers`, and no other row appears.
   */
  function VisibleRows(providers: seq<Record>, chips: seq<Chip>, search: string, sortValue: string): (rows: seq<Record>)
    ensures forall x :: multiset(rows)[x] == (if Shown(x, Selected(chips), NormalizedQuery(search)) then multiset(providers)[x] else 0)
    ensures forall i :: 0 <= i < |rows| ==> rows[i].provider in Selected(chips)
    ensures NormalizedQuery(search) != [] ==> forall i :: 0 <= i < |rows| ==>
      SomeTextContains(FieldTexts(rows[i]), NormalizedQuery(search))
    ensures SortKeyOf(sortValue).Some? ==> Sorted(SortKeyOf(sortValue).value, rows)
    ensures SortKeyOf(sortValue).Some? ==>
      forall x :: TiedWith(SortKeyOf(sortValue).value, rows, x) ==
        TiedWith(SortKeyOf(sortValue).value, Matching(providers, Selected(chips), NormalizedQuery(search)), x)
    ensures SortKeyOf(sortValue).None? ==> IsSubsequence(rows, providers)
    ensures SortKeyOf(sortValue).None? && NormalizedQuery(search) == [] ==>
      rows == Filter(providers, IsSelected(Selected(chips)))
  {
    var selected := Selected(chips);
    var q := NormalizedQuery(search);
    var matching := Matching(providers, selected, q);
    var rows := ApplySort(sortValue, matching);
    MatchingCounts(providers, selected, q);
    MatchingIsSubsequence(providers, selected, q);
    VisibleRowsAreShown(providers, selected, q, rows);
    rows
  }

  /** A row that occurs in a result counted as `Shown` passed both filters. */
  lemma VisibleRowsAreShown(providers: seq<Record>, selected: seq<string>, q: string, rows: seq<Record>)
    requires forall x :: multiset(rows)[x] == (if Shown(x, selected, q) then multiset(providers)[x] else 0)
    ensures forall i :: 0 <= i < |rows| ==> rows[i].provider in selected
    ensures q != [] ==> forall i :: 0 <= i < |rows| ==> SomeTextContains(FieldTexts(rows[i]), q)
  {
    forall i | 0 <= i < |rows|
      ensures rows[i].provider in selected
      ensures q != [] ==> AnyFieldIncludes(FieldTexts(rows[i]), q)
    {
      assert multiset(rows)[rows[i]] > 0;
      assert Shown(rows[i], selected, q);
      assert MatchesQuery(q)(rows[i]) == AnyFieldIncludes(FieldTexts(rows[i]), q);
    }
  }

  /** What the table body shows: whatever it held before, the "no match" row, or the rows. */
  datatype TableBody = Previous | NoMatchRow | RowsShown(rows: seq<Record>)

  datatype Page = Page(body: TableBody, buttonText: string)

  /**
    `renderTable` as written. With no providers loaded it does nothing. When
    no row survives the filters it shows the "no match" row and returns
    before the button label is refreshed, so the label keeps its old text.
   */
  function RenderTable(providers: seq<Record>, chips: seq<Chip>, search: string, sortValue: string, page: Page): (r: Page)
    ensures |providers| == 0 ==> r == page
    ensures |providers| > 0 ==> (r.body == NoMatchRow <==> VisibleRows(providers, chips, search, sortValue) == [])
    ensures |providers| > 0 && VisibleRows(providers, chips, search, sortValue) != [] ==>
      r.body == RowsShown(VisibleRows(providers, chips, search, sortValue))
    ensures |providers| > 0 && r.body.RowsShown? ==> r.buttonText == ToggleLabel(chips)
    ensures |providers| > 0 && r.body == NoMatchRow ==> r.buttonText == page.buttonText
  {
    if |providers| == 0 then page
    else
      var rows := VisibleRows(providers, chips, search, sortValue);
      if |rows| == 0 then Page(NoMatchRow, page.buttonText)
      else Page(RowsShown(rows), ToggleLabel(chips))
  }

  /**
    `renderTable` with the label refreshed before the early return: whenever
    providers are loaded, the label matches the boxes, rows or no rows. The
    table body is the same as in `RenderTable`.
   */
  function RenderTableCorrected(providers: seq<Record>, chips: seq<Chip>, search: string, sortValue: string, page: Page): (r: Page)
    ensures |providers| == 0 ==> r == page
    ensures |providers| > 0 ==> r.buttonText == ToggleLabel(chips)
    ensures |providers| > 0 ==> (r.body == NoMatchRow <==> VisibleRows(providers, chips, search, sortValue) == [])
    ensures |providers| > 0 && VisibleRows(providers, chips, search, sortValue) != [] ==>
      r.body == RowsShown(VisibleRows(providers, chips, search, sortValue))
  {
    if |providers| == 0 then page
    else
      var rows := VisibleRows(providers, chips, search, sortValue);
      var buttonText := ToggleLabel(chips);
      if |rows| == 0 then Page(NoMatchRow, buttonText) else Page(RowsShown(rows), buttonText)
  }

  /** The state of the page the handlers act on. */
  datatype View = View(chips: seq<Chip>, page: Page)

  /**
    The select-all button's click handler as written: flip every box, then
    `renderTable`. It leaves the boxes and the table body exactly as the
    corrected handler does; the two differ only in the label, and only when
    no row survives, where this one keeps the label it had before the click.
   */
  function OnToggleAllAsWritten(providers: seq<Record>, v: View, search: string, sortValue: string): (r: View)
    ensures r.chips == OnToggleAll(providers, v, search, sortValue).chips
    ensures r.page.body == OnToggleAll(providers, v, search, sortValue).page.body
    ensures |providers| == 0 || VisibleRows(providers, r.chips, search, sortValue) != [] ==>
      r == OnToggleAll(providers, v, search, sortValue)
    ensures |providers| > 0 && VisibleRows(providers, r.chips, search, sortValue) == [] ==>
      r.page.buttonText == v.page.buttonText
  {
    var chips := ToggleAll(v.chips);
    View(chips, RenderTable(providers, chips, search, sortValue, v.page))
  }

  /**
    The click handler over the corrected render: flip every box, keeping
    their names, redraw the rows the new boxes select, and, on a loaded page,
    set the label to name the action the next click performs.
   */
  function OnToggleAll(providers: seq<Record>, v: View, search: string, sortValue: string): (r: View)
    ensures |r.chips| == |v.chips|
    ensures forall i :: 0 <= i < |r.chips| ==> r.chips[i].value == v.chips[i].value
    ensures AllChecked(v.chips) ==> NoneChecked(r.chips)
    ensures !AllChecked(v.chips) ==> AllChecked(r.chips)
    ensures |providers| == 0 ==> r.page == v.page
    ensures |providers| > 0 ==> (r.page.body == NoMatchRow <==> VisibleRows(providers, r.chips, search, sortValue) == [])
    ensures |providers| > 0 && VisibleRows(providers, r.chips, search, sortValue) != [] ==>
      r.page.body == RowsShown(VisibleRows(providers, r.chips, search, sortValue))
    ensures |providers| > 0 ==> r.page.buttonText == ToggleLabel(r.chips)
  {
    var chips := ToggleAll(v.chips);
    View(chips, RenderTableCorrected(providers, chips, search, sortValue, v.page))
  }

  /** With no box ticked, no row is shown. */
  lemma NothingSelectedShowsNothing(providers: seq<Record>, chips: seq<Chip>, search: string, sortValue: string)
    requires NoneChecked(chips)
    ensures VisibleRows(providers, chips, search, sortValue) == []
  {
    var rows := VisibleRows(providers, chips, search, sortValue);
    assert Selected(chips) == [];
    assert forall x :: multiset(rows)[x] == 0;
    assert multiset(rows) == multiset{};
  }

  /**
    The label bug: on a loaded page whose boxes are all ticked and whose
    button reads "Unselect All", a click unticks every box, but the buttonText
    still reads "Unselect All" although the next click will select all.
   */
  lemma StaleLabelAfterUnselectAll(providers: seq<Record>, v: View, search: string, sortValue: string)
    requires |providers| > 0 && |v.chips| > 0 && AllChecked(v.chips)
    requires v.page.buttonText == UnselectAllLabel
    ensures NoneChecked(OnToggleAllAsWritten(providers, v, search, sortValue).chips)
    ensures OnToggleAllAsWritten(providers, v, search, sortValue).page.buttonText == UnselectAllLabel
    ensures ToggleLabel(OnToggleAllAsWritten(providers, v, search, sortValue).chips) == SelectAllLabel
  {
    var chips := ToggleAll(v.chips);
    NothingSelectedShowsNothing(providers, chips, search, sortValue);
    assert !chips[0].checked;
  }

  /**
    Right after the boxes are built, every box is ticked, so a search box
    holding only white space, with no recognised sort, shows every provider,
    in provider order.
   */
  lemma InitialViewShowsAll(providers: seq<Record>, search: string, sortValue: string)
    requires forall k :: 0 <= k < |search| ==> IsSpace(search[k])
    requires sortValue != "price" && sortValue != "connections" && sortValue != "countries"
    ensures VisibleRows(providers, InitialChips(providers), search, sortValue) == providers
  {
    assert NormalizedQuery(search) == [];
    var chips := InitialChips(providers);
    var selected := Selected(chips);
    forall i | 0 <= i < |providers| ensures IsSelected(selected)(providers[i]) {
      assert chips[i].checked && chips[i].value == providers[i].provider;
    }
    FilterKeepsAll(providers, IsSelected(selected));
  }

  lemma {:induction false} FilterKeepsAll<T>(s: seq<T>, keep: T -> bool)
    requires forall i :: 0 <= i < |s| ==> keep(s[i])
    ensures Filter(s, keep) == s
  {
    if s != [] {
      var n := |s| - 1;
      FilterKeepsAll(s[..n], keep);
      assert keep(s[n]);
      assert Filter(s, keep) == Filter(s[..n], keep) + [s[n]];
      assert s == s[..n] + [s[n]];
    }
  }
}

=== FILE: text.dfy ===
/**
  The string primitives the table code relies on: `toLowerCase`, `trim`,
  `includes` and `String(...)` of a number. Case mapping covers ASCII only.
 */
module Text {

  predicate IsUpper(c: char) {
    'A' <= c <= 'Z'
  }

  function LowerChar(c: char): char {
    if IsUpper(c) then (c as int + 32) as char else c
  }

  /** `toLowerCase`, restricted to the ASCII letters. */
  function Lower(s: string): (r: string)
    ensures |r| == |s|
    ensures forall i :: 0 <= i < |s| ==> r[i] == LowerChar(s[i])
    ensures forall i :: 0 <= i < |r| ==> !IsUpper(r[i])
  {
    seq(|s|, i requires 0 <= i < |s| => LowerChar(s[i]))
  }

  /** Lower-casing an already lower-cased string changes nothing. */
  lemma LowerIdempotent(s: string)
    ensures Lower(Lower(s)) == Lower(s)
  {
  }

  /** The white space `trim` removes: the ECMAScript WhiteSpace and LineTerminator characters, except the Unicode space separators beyond U+00A0. */
  predicate IsSpace(c: char) {
    c == ' ' || c == '\t' || c == '\n' || c == '\r' || c == '\U{B}' || c == '\U{C}'
    || c == '\U{A0}' || c == '\U{2028}' || c == '\U{2029}' || c == '\U{FEFF}'
  }

  ghost predicate AllSpace(s: string) {
    forall k :: 0 <= k < |s| ==> IsSpace(s[k])
  }

  function TrimStart(s: string): (r: string)
    ensures |r| <= |s| && r == s[|s| - |r|..]
    ensures AllSpace(s[..|s| - |r|])
    ensures r == [] || !IsSpace(r[0])
  {
    if |s| > 0 && IsSpace(s[0]) then
      var r := TrimStart(s[1..]);
      SpaceThenTrimmed(s, r);
      r
    else s
  }

  /** White space, then white space, then `r`: `r` is a suffix of `s` behind white space only. */
  lemma SpaceThenTrimmed(s: string, r: string)
    requires |s| > 0 && IsSpace(s[0])
    requires |r| <= |s| - 1 && r == s[1..][|s| - 1 - |r|..]
    requires AllSpace(s[1..][..|s| - 1 - |r|])
    ensures r == s[|s| - |r|..]
    ensures AllSpace(s[..|s| - |r|])
  {
    var t := s[1..];
    assert t[|t| - |r|..] == s[|s| - |r|..];
    forall k | 0 <= k < |s| - |r| ensures IsSpace(s[k]) {
      if k > 0 {
        assert s[k] == t[..|t| - |r|][k - 1];
      }
    }
  }

  function TrimEnd(s: string): (r: string)
    ensures |r| <= |s| && r == s[..|r|]
    ensures AllSpace(s[|r|..])
    ensures r == [] || !IsSpace(r[|r| - 1])
  {
    if |s| > 0 && IsSpace(s[|s| - 1]) then
      var front := s[..|s| - 1];
      var r := TrimEnd(front);
      assert front[..|r|] == s[..|r|];
      assert s[|r|..] == front[|r|..] + [s[|s| - 1]];
      r
    else s
  }

  /** `r` is the slice of `s` starting at `i`, with only white space cut off on either side. */
  ghost predicate TrimmedAt(s: string, r: string, i: int) {
    0 <= i <= |s| - |r| && r == s[i..i + |r|] && AllSpace(s[..i]) && AllSpace(s[i + |r|..])
  }

  /**
    `trim`: the result is a contiguous slice of the input, everything cut off
    on either side is white space, and the result neither starts nor ends
    with white space.
   */
  function Trim(s: string): (r: string)
    ensures exists i :: TrimmedAt(s, r, i)
    ensures r == [] || (!IsSpace(r[0]) && !IsSpace(r[|r| - 1]))
  {
    var t := TrimStart(s);
    var r := TrimEnd(t);
    TrimmedInTwoSteps(s, t, r);
    assert TrimmedAt(s, r, |s| - |t|);
    r
  }

  /** Cutting white space off the front, then off the back, leaves a trimmed slice. */
  lemma TrimmedInTwoSteps(s: string, t: string, r: string)
    requires |t| <= |s| && t == s[|s| - |t|..] && AllSpace(s[..|s| - |t|])
    requires |r| <= |t| && r == t[..|r|] && AllSpace(t[|r|..])
    requires t == [] || !IsSpace(t[0])
    ensures TrimmedAt(s, r, |s| - |t|)
    ensures r == [] || !IsSpace(r[0])
  {
    var i := |s| - |t|;
    assert r == s[i..i + |r|];
    assert s[i + |r|..] == t[|r|..];
    if r != [] {
      assert r[0] == t[0];
    }
  }

  /** A text with no white space at either end is its own trim. */
  lemma TrimFixesTrimmed(s: string)
    requires s == [] || (!IsSpace(s[0]) && !IsSpace(s[|s| - 1]))
    ensures Trim(s) == s
  {
    assert TrimStart(s) == s;
    assert TrimEnd(s) == s;
  }

  /** Trimming twice is trimming once. */
  lemma TrimIdempotent(s: string)
    ensures Trim(Trim(s)) == Trim(s)
  {
    TrimFixesTrimmed(Trim(s));
  }

  /** Trimming only removes characters: everything left was in the input. */
  lemma TrimKeepsCharacters(s: string)
    ensures forall c :: c in Trim(s) ==> c in s
  {
    var r := Trim(s);
    var i :| TrimmedAt(s, r, i);
    SliceKeepsCharacters(s, r, i);
  }

  /** Every character of a slice occurs in the whole. */
  lemma SliceKeepsCharacters(s: string, r: string, i: int)
    requires 0 <= i <= |s| - |r| && r == s[i..i + |r|]
    ensures forall c :: c in r ==> c in s
  {
    forall c | c in r ensures c in s {
      var k :| 0 <= k < |r| && r[k] == c;
      assert c == s[i + k];
    }
  }

  /** `q` occurs in `s` starting at position `i`. */
  predicate OccursAt(s: string, q: string, i: int) {
    0 <= i <= |s| - |q| && s[i..i + |q|] == q
  }

  /** `q` occurs in `s` as a contiguous run of characters. */
  ghost predicate Occurs(s: string, q: string) {
    exists i :: OccursAt(s, q, i)
  }

  /** `s.includes(q)`, computed by trying every start position in turn. */
  function Includes(s: string, q: string): (r: bool)
    ensures r <==> Occurs(s, q)
    decreases |s|
  {
    if |q| > |s| then false
    else if s[..|q|] == q then assert OccursAt(s, q, 0); true
    else
      var r := Includes(s[1..], q);
      assert Occurs(s, q) ==> Occurs(s[1..], q) by {
        if Occurs(s, q) {
          var i :| OccursAt(s, q, i);
          assert i != 0;
          OccursAfterFirst(s, q, i - 1);
        }
      }
      assert Occurs(s[1..], q) ==> Occurs(s, q) by {
        if Occurs(s[1..], q) {
          var i :| OccursAt(s[1..], q, i);
          OccursAfterFirst(s, q, i);
        }
      }
      r
  }

  /** An occurrence past the first character is an occurrence in the rest, one position earlier. */
  lemma OccursAfterFirst(s: string, q: string, i: int)
    requires |s| > 0 && i >= 0
    ensures OccursAt(s, q, i + 1) <==> OccursAt(s[1..], q, i)
  {
    if 0 <= i <= |s| - 1 - |q| {
      assert s[1..][i..i + |q|] == s[i + 1..i + 1 + |q|];
    }
  }

  function DigitChar(d: int): char
    requires 0 <= d < 10
  {
    "0123456789"[d]
  }

  function DigitValue(c: char): int {
    if '0' <= c <= '9' then c as int - '0' as int else 0
  }

  /** The value of a string of decimal digits. */
  function DigitsValue(s: string): int {
    if s == [] then 0 else 10 * DigitsValue(s[..|s| - 1]) + DigitValue(s[|s| - 1])
  }

  predicate IsDigit(c: char) {
    '0' <= c <= '9'
  }

  /** `String(n)` of a non-negative integer: decimal digits, no leading zero. */
  function NatString(n: nat): (r: string)
    ensures |r| > 0 && (forall k :: 0 <= k < |r| ==> IsDigit(r[k]))
    ensures DigitsValue(r) == n
    ensures r[0] == '0' ==> r == "0"
  {
    if n < 10 then [DigitChar(n)]
    else
      var r := NatString(n / 10) + [DigitChar(n % 10)];
      assert r[..|r| - 1] == NatString(n / 10);
      r
  }

  /** `String(n)` of an integer, with a leading minus sign when negative. */
  function IntString(n: int): string {
    if n < 0 then "-" + NatString(-n) else NatString(n)
  }

  /**
    `String(p)` of a price held in cents: `3.99` for 399, `6.5` for 650,
    `7` for 700. JavaScript prints the shortest decimal form of the number,
    so a trailing zero in the cents is dropped.
   */
  function PriceString(cents: int): string {
    if cents < 0 then "-" + UnsignedPriceString(-cents) else UnsignedPriceString(cents)
  }

  function UnsignedPriceString(cents: nat): string {
    var whole := NatString(cents / 100);
    var frac := cents % 100;
    if frac == 0 then whole
    else if frac % 10 == 0 then whole + "." + [DigitChar(frac / 10)]
    else whole + "." + [DigitChar(frac / 10), DigitChar(frac % 10)]
  }
}

=== FILE: wrappers.dfy ===
/** Optional values, used for fields a record may omit and for outcomes that may fail. */
module Wrappers {

  datatype Option<+T> = None | Some(value: T)
}
